=== FILE: README.md ===
# learn_rust cores in Dafny

This project models the sequential cores of the `learn_rust` repository, a
collection of Rust exercises, and proves properties of each:

- **Hand-written executor** (`executor.dfy`). The model has a FIFO run queue
  of task ids with the channel's capacity of 10 000, and one
  `Mutex<Option<future>>` slot per task. The run loop takes a future out of
  its slot, polls it once and puts it back only when it is `Pending`. Wakes
  re-enqueue the same task. A ghost poll log carries the main invariant: no
  task is polled again after it reported `Ready`.
- **Timer future** (`timer_future.dfy`). This is the `{completed, waker}`
  state shared by `poll` and the worker thread. Both run under one lock, so
  an interleaving is a sequence of atomic steps. The model proves there is
  no lost wakeup: either the worker wakes the waker of the latest pending
  poll, or the next poll is `Ready`.
- **Tokio tutorial futures** (`tokio_tutorial.dfy`). It covers `Delay::poll`
  against a clock value passed as a parameter, the `MainFuture` state
  machine, and the `MiniTokio` run loop with its `try_lock().unwrap()` polls.
- **Union-find with path compression** (`union_find.dfy`), modelled as
  written. `find` re-points the nodes on the path at their root. Both
  branches of `unify` attach `p`'s root under `q`'s root, and
  `num_components` is never updated. Ghost fields give each node's root and
  a rank that grows towards the root. They carry two invariants:
  - the parent links form a forest;
  - every root's `sizes` entry is the number of nodes in its tree.
- **Lists from "Learning Rust With Entirely Too Many Linked Lists"**:
  - the owned stack (`first.dfy`);
  - the persistent `Rc` list and its iterator (`third.dfy`);
  - the doubly-linked deque with node objects (`fourth.dfy`). Its ghost
    node sequence and contents carry the link invariant.
- **Mini Redis** (`my_redis.dfy`, `server.dfy`):
  - the sharded database and `get_db`;
  - RESP2 frame writing (the Redis serialization protocol) as a pure
    function from a frame to the bytes sent;
  - `parse_frame` on a connection's buffer;
  - the server's `Set`/`Get` handling over eight shards.

  An independent RESP2 reader (`Decode`) reads back exactly every frame the
  writer writes in full whose simple or error text holds no CR, whatever
  bytes follow. `write_frame` sends such text unchecked, so a simple string
  or error holding CR LF is written in full but reads back as a different,
  shorter frame (`MyRedis.CrInSimpleTextDoesNotReadBack`).

Where a comment or doc example disagrees with the code, the model follows the
code:

- The doc example of `List::push_front` in `fourth.rs` expects `Some(4)`
  after pushing only 3. The code returns `Some(3)`, as
  `FourthList.SinglePushExample` states.
- The comment in `unify` says the smaller tree is merged into the larger one.
  The code always attaches `p`'s root under `q`'s root.
- The field comment says `num_components` tracks the number of components.
  The code never changes it.

`wrappers.dfy` holds `Option` and `Result`. `futures.dfy` holds the abstract
futures used by both executors. A future is a script of poll outcomes: one
`Pending` per entry, with a flag saying whether that poll wakes its own task,
then `Ready`.

## Model

| member | source | states |
|---|---|---|
| Executor.Executor.constructor | src/asynchronous_programming_in_rust/executor.rs:29-33 | a new executor and spawner share one empty queue; the spawner is alive and nothing has been polled |
| Executor.Executor.Spawn | src/asynchronous_programming_in_rust/executor.rs:36-43 | with room in the queue, exactly one fresh task whose slot holds `Some(future)` is added and its id enqueued; with a full queue the call fails with "too many tasks queued" and nothing changes |
| Executor.Executor.DropSpawner | src/asynchronous_programming_in_rust/executor.rs:111 | dropping the spawner changes nothing but its liveness |
| Executor.Executor.Wake | src/asynchronous_programming_in_rust/executor.rs:46-52 | the very same task id is enqueued at the back of the one shared queue, or the send fails with "too many tasks queued" when the queue is full; slots are untouched |
| Executor.Executor.RunOnce | src/asynchronous_programming_in_rust/executor.rs:57-82 | dequeues the oldest task; an empty slot is skipped without polling; otherwise the future is polled exactly once, put back only on `Pending`, and the slot stays `None` on `Ready`; a self-wake re-enqueues it; a polled task never reported `Ready` before; the invariant "never polled after `Ready`" is kept and each call makes progress: the polls still owed drop, or they stay and the queue shrinks |
| Executor.Executor.Run | src/asynchronous_programming_in_rust/executor.rs:56-84 | terminates with an empty queue, keeps the invariant, only appends to the poll log, and reports disconnection exactly when the spawner is dropped and no task still holds a future; distinct ready tasks finish in queue (FIFO) order |
| Executor.TimerTaskScenario | src/asynchronous_programming_in_rust/executor.rs:97-114 | the test's task, pending on its first poll while its timer holds the waker, leaves the loop unable to return after that poll; the timer's worker wakes exactly that task's waker, which re-enqueues it; polled again it finds the timer completed, is ready, and the loop returns |
| TimerFuture.PollStep | src/asynchronous_programming_in_rust/timer_future.rs:52-63 | a completed timer is `Ready` and unchanged; otherwise the poll stores the current waker, overwriting any earlier one, and is `Pending` |
| TimerFuture.FireStep | src/asynchronous_programming_in_rust/timer_future.rs:36-41 | firing sets `completed`, leaves no stored waker and wakes exactly the waker that was stored, if any |
| TimerFuture.BeforeFireHoldsLastPoller | src/asynchronous_programming_in_rust/timer_future.rs:54-62 | before the worker fires, the shared state is not completed and holds the waker of the most recent poll, for every interleaving of polls |
| TimerFuture.CompletedAfterFire | src/asynchronous_programming_in_rust/timer_future.rs:36-57 | once the worker has fired, the timer is completed whatever events follow |
| TimerFuture.NoLostWakeup | src/asynchronous_programming_in_rust/timer_future.rs:36-62 | no lost wakeup: firing after any run of polls wakes the last poller's waker, and every poll after the firing is `Ready` without changing the state |
| TimerFuture.PendingUntilFire | src/asynchronous_programming_in_rust/timer_future.rs:55-62 | every poll made before the worker fires is `Pending` |
| TimerFuture.PollFirePoll | src/asynchronous_programming_in_rust/timer_future.rs:36-63 | a timer polled before its worker fires is `Pending`, the worker then wakes exactly the waker of that poll, and the next poll is `Ready` |
| TimerFuture.TimerFuture.constructor | src/asynchronous_programming_in_rust/timer_future.rs:22-46 | a new timer is not completed and has no waker |
| TimerFuture.TimerFuture.Poll | src/asynchronous_programming_in_rust/timer_future.rs:52-63 | the in-place poll performs exactly the atomic step `PollStep` |
| TimerFuture.TimerFuture.Fire | src/asynchronous_programming_in_rust/timer_future.rs:36-41 | the worker's in-place update performs exactly the atomic step `FireStep` |
| TokioTutorial.WorkerWakesLatestPoller | src/tokio_tutorial/mod.rs:20-50 | a delay polled before its deadline by one waker and then by another is `Pending` both times, only the first poll starts a worker thread, and that worker, waking up, wakes the second waker, the latest poller's |
| TokioTutorial.Delay.Poll | src/tokio_tutorial/mod.rs:20-50 | `Ready` exactly when `now >= when`; without a stored waker a fresh cell holding the context's waker is stored and exactly one worker is started; with one, the same cell is kept, holds the context's waker afterwards and is untouched when it already would wake the same task |
| TokioTutorial.MainFuture.Poll | src/tokio_tutorial/mod.rs:62-91 | from `State0` one call builds a delay 10 ms after `start` already holding the waker, moves to `State1` and polls it, being `Ready` and `Terminated` only when the delay is; in `State1` it is `Ready` and `Terminated` exactly when the delay is due, else stays put; a terminated future panics with "future polled after completion"; no call ever starts a worker |
| TokioTutorial.MiniTokio.constructor | src/tokio_tutorial/mod.rs:101-104 | a new runtime has an empty queue and no tasks |
| TokioTutorial.MiniTokio.Spawn | src/tokio_tutorial/mod.rs:106-111 | one new task holding the future is created and sent on the runtime's own channel |
| TokioTutorial.MiniTokio.Schedule | src/tokio_tutorial/mod.rs:126-128 | the task is sent again; the send cannot fail and nothing else changes |
| TokioTutorial.MiniTokio.PollTask | src/tokio_tutorial/mod.rs:130-137 | a task whose future is locked makes the poll panic with `WouldBlock` and nothing changes; otherwise its future is polled exactly once, a self-wake reschedules it and the lock is released |
| TokioTutorial.PolledAgainAfterReady | src/tokio_tutorial/mod.rs:130-137 | `Task::poll` has no guard against a finished future: a task rescheduled after its future reported `Ready` is polled a second time |
| TokioTutorial.MiniTokio.Run | src/tokio_tutorial/mod.rs:113-117 | the loop ends with an empty queue, having polled every task queued on entry once per receipt, in the order received |
| UnionFind.MergeMembers | src/data_structures/union_find.rs:107-113 | attaching one tree under another root gives that root the members of both, its size is the sum of the two sizes, and every other tree is unchanged |
| UnionFind.SingletonMembers | src/data_structures/union_find.rs:38-43 | in a fresh structure every tree has exactly one node |
| UnionFind.CompressKeepsForest | src/data_structures/union_find.rs:63-68 | re-pointing any node straight at its root keeps the forest, every node's root and every recorded size |
| UnionFind.AttachKeepsForest | src/data_structures/union_find.rs:105-113 | attaching a root under a distinct root keeps the parent links a forest, with every node of the attached tree now reaching the new root |
| UnionFind.AttachKeepsSizes | src/data_structures/union_find.rs:107-113 | adding the attached tree's size into the new root's keeps every root's size equal to the number of nodes in its tree |
| UnionFind.UnionFind.FollowParents | src/data_structures/union_find.rs:57-61 | following parents from any node ends, at the node's root, which is its own parent |
| UnionFind.UnionFind.Init | src/data_structures/union_find.rs:38-43 | `id[i] = i`, `sizes[i] = 1` and `num_components = n`, with the invariants established |
| UnionFind.UnionFind.New | src/data_structures/union_find.rs:33-44 | size zero fails with `UnionFindSizeError`, and only size zero does; any other size gives the fresh structure |
| UnionFind.UnionFind.Find | src/data_structures/union_find.rs:51-71 | an out-of-range id fails with `UnionFindInvalidId` and changes nothing; otherwise returns the root of `p`, which is its own parent, leaves `p` pointing at it, keeps every node's root and changes any parent only into that node's root |
| UnionFind.UnionFind.Connected | src/data_structures/union_find.rs:78-80 | succeeds exactly when both ids are valid, and is then true exactly when they have the same root; errors are `UnionFindInvalidId` |
| UnionFind.UnionFind.Size | src/data_structures/union_find.rs:83-85 | the number of nodes |
| UnionFind.UnionFind.ComponentsSize | src/data_structures/union_find.rs:88-90 | as written, always the number of nodes, whatever was unified |
| UnionFind.UnionFind.Attach | src/data_structures/union_find.rs:105-114 | both identical branches add the size of `a`'s tree into `b`'s and attach `a` under `b`, and the forest and size invariants hold afterwards |
| UnionFind.UnionFind.Unify | src/data_structures/union_find.rs:97-117 | succeeds exactly when both ids are valid and then gives `p` and `q` the same root, every node of `p`'s tree reaching `q`'s root; already-connected nodes change no root, parent of a root or size; `num_components` never changes; an invalid id merges nothing |
| FirstList.Pushed | src/entirely_too_many_lists/first.rs:64-71 | the new chain is the element followed by the old contents |
| FirstList.Popped | src/entirely_too_many_lists/first.rs:73-81 | popping an empty chain gives `None` and leaves it empty; otherwise it gives the head element and leaves exactly the rest |
| FirstList.PushThenPop | src/entirely_too_many_lists/first.rs:64-81 | a push followed by a pop returns the pushed element and restores the chain |
| FirstList.PushAllThenPopMany | src/entirely_too_many_lists/first.rs:107-125 | last in, first out: after pushing any sequence, as many pops return it latest first and restore the chain |
| FirstList.List.constructor | src/entirely_too_many_lists/first.rs:60-62 | a new list is empty |
| FirstList.List.Push | src/entirely_too_many_lists/first.rs:64-71 | the element goes on top of the old contents |
| FirstList.List.Pop | src/entirely_too_many_lists/first.rs:73-81 | on an empty list `None` and still empty; otherwise the top element, leaving exactly the rest |
| FirstList.Basics | src/entirely_too_many_lists/first.rs:107-126 | the test's interleaved pushes and pops return `None, 3, 2, 5, 4, 1, None` |
| ThirdList.New | src/entirely_too_many_lists/third.rs:19-21 | a new list has no elements |
| ThirdList.Prepend | src/entirely_too_many_lists/third.rs:23-28 | the new list is the element followed by the receiver's elements, sharing the receiver's nodes; the receiver is a value and stays as it was |
| ThirdList.Tail | src/entirely_too_many_lists/third.rs:30-32 | the tail of the empty list is empty; otherwise it holds every element but the first |
| ThirdList.Head | src/entirely_too_many_lists/third.rs:34-36 | `None` exactly for the empty list, otherwise the first element |
| ThirdList.NewHasNoHead | src/entirely_too_many_lists/third.rs:76-77 | a new list's head is `None` |
| ThirdList.PrependThenTail | src/entirely_too_many_lists/third.rs:23-32 | a prepended list's head is the new element and its tail is the original list |
| ThirdList.Basics | src/entirely_too_many_lists/third.rs:75-94 | the test's heads `3, 2, 1, None, None` along successive tails |
| ThirdList.Iter.constructor | src/entirely_too_many_lists/third.rs:45-47 | the iterator starts at the list's head with nothing yielded |
| ThirdList.Iter.Next | src/entirely_too_many_lists/third.rs:52-54 | yields the list's elements from head to end, one per call, then `None` for good |
| FourthList.Node.constructor | src/entirely_too_many_lists/fourth.rs:283-289 | a new node holds the element and is unlinked |
| FourthList.List.constructor | src/entirely_too_many_lists/fourth.rs:56-58 | a new deque is empty, with no head and no tail |
| FourthList.List.PushFront | src/entirely_too_many_lists/fourth.rs:74-86 | the element goes in front in a fresh node; the link invariant (head/tail both null or both set, head without `prev`, tail without `next`, each `next.prev` the node itself) is kept |
| FourthList.List.PushBack | src/entirely_too_many_lists/fourth.rs:157-168 | the element goes at the back in a fresh node, keeping the link invariant |
| FourthList.List.PopFront | src/entirely_too_many_lists/fourth.rs:105-120 | `None` on an empty deque; otherwise the first element, leaving exactly the rest; popping the last element clears head and tail |
| FourthList.List.PopBack | src/entirely_too_many_lists/fourth.rs:186-198 | `None` on an empty deque; otherwise the last element, leaving exactly the rest; popping the last element clears head and tail |
| FourthList.List.PeekFront | src/entirely_too_many_lists/fourth.rs:136-140 | the first element, or `None` when empty, removing nothing |
| FourthList.List.PeekBack | src/entirely_too_many_lists/fourth.rs:218-221 | the last element, or `None` when empty, removing nothing |
| FourthList.List.PeekFrontMut | src/entirely_too_many_lists/fourth.rs:264-267 | a write through the reference replaces only the first element, and the links stay as they were; an empty deque gives no reference |
| FourthList.List.PeekBackMut | src/entirely_too_many_lists/fourth.rs:241-244 | a write through the reference replaces only the last element, and the links stay as they were; an empty deque gives no reference |
| FourthList.SinglePushExample | src/entirely_too_many_lists/fourth.rs:47-72 | the `new` and `push_front` examples: one push of 3 in front pops as 3 (the `push_front` example's expected 4 is not what the code returns) |
| FourthList.FrontPushesExample | src/entirely_too_many_lists/fourth.rs:14-23 | the `List` example: 3 then 4 pushed in front pop as 4, 3, then `None` |
| FourthList.PushBackExample | src/entirely_too_many_lists/fourth.rs:146-155 | the `push_back` example: 3 at the back and 4 in front pop from the front as 4, 3, then `None` |
| FourthList.BackExample | src/entirely_too_many_lists/fourth.rs:178-184 | the `pop_back` example pops 3, then 4, then nothing |
| FourthList.PeekExamples | src/entirely_too_many_lists/fourth.rs:205-262 | the peek examples: 3 at the back, nothing once popped, and 4 popped after writing 4 through either end's mutable reference |
| MyRedis.NewSharedDb | src/my_redis/mod.rs:21-27 | exactly `n` shards, each an empty map |
| MyRedis.GetDb | src/my_redis/mod.rs:29-33 | the chosen shard index is always below the number of shards, which must be positive; one shard is always shard 0 |
| MyRedis.Decimal | src/my_redis/mod.rs:125 | the formatted value is a non-empty run of ASCII digits that starts with `0` only for zero |
| MyRedis.DecimalRoundTrip | src/my_redis/mod.rs:120-132 | reading back the written digits gives the value |
| MyRedis.DecimalLength | src/my_redis/mod.rs:123-125 | a value has at most `k` digits exactly when it is below `10^k` |
| MyRedis.DecimalFits | src/my_redis/mod.rs:123-125 | the 12-byte buffer holds the digits exactly of values below `10^12` |
| MyRedis.WriteDecimal | src/my_redis/mod.rs:120-132 | succeeds exactly for values below `10^12`, with the digits followed by CR LF |
| MyRedis.WriteFrame | src/my_redis/mod.rs:86-118 | the write ends with the flush exactly for frames other than arrays and over-long numbers; an over-long number leaves only the type byte on the stream and fails; an array panics before writing; the bytes start with the frame's type byte |
| MyRedis.SimpleRoundTrip | src/my_redis/mod.rs:88-97 | for a text holding no CR, `+` or `-`, the text and CR LF is read back as the same simple string or error, taking exactly those bytes |
| MyRedis.IntegerRoundTrip | src/my_redis/mod.rs:98-101 | `:`, the decimal digits and CR LF is read back as the same integer |
| MyRedis.NullRoundTrip | src/my_redis/mod.rs:102-104 | `$-1` CR LF is read back as `Null`, taking exactly five bytes |
| MyRedis.BulkRoundTrip | src/my_redis/mod.rs:105-112 | `$`, the decimal length, CR LF, the payload and CR LF is read back as the same bulk string |
| MyRedis.CrInSimpleTextDoesNotReadBack | src/my_redis/mod.rs:88-92 | the text of a simple string is written unchecked: `a` CR LF `b` is flushed in full as `+a` CR LF `b` CR LF, and reads back as the simple string `a`, taking 4 of the 7 bytes |
| MyRedis.WriteThenDecode | src/my_redis/mod.rs:86-118 | every frame written in full whose simple text or error text holds no CR is read back as the same frame, taking exactly the bytes written, whatever follows |
| MyRedis.Connection.constructor | src/my_redis/mod.rs:64-69 | a new connection's buffer is empty |
| MyRedis.Connection.ParseFrame | src/my_redis/mod.rs:134-150 | `Incomplete` yields `None` with the buffer untouched; a successful parse consumes exactly the checked length; check and parse errors are passed on with the buffer untouched |
| Server.Store | src/bin/server.rs:45 | after an insert the key holds the new value, replacing any old one, and every other key keeps its value |
| Server.Respond | src/bin/server.rs:39-58 | `Set` replies `Simple("OK")` and stores the value in the key's shard, leaving other keys alone; `Get` replies `Bulk(value)` for a present key and `Null` for an absent one without changing anything; any other command panics |
| Server.GetAfterSet | src/bin/server.rs:40-55 | a `Get` after a `Set` of the same key replies with the value set |
| Server.Serve | src/bin/server.rs:38-60 | one reply per command until the first unimplemented command, which ends the loop with a panic; the shard count never changes |
| Server.RepliesReadable | src/bin/server.rs:38-58 | when no stored or set value reaches `10^12` bytes, every reply of the loop is a frame that the `my_redis` module's `write_frame` writes in full and that reads back as itself |
| Server.Database.constructor | src/bin/server.rs:18 | the database starts with exactly 8 empty shards |
| Server.Database.Execute | src/bin/server.rs:39-58 | one command applied in place: `Set` inserts into shard `get_db(key)` and replies OK; `Get` leaves the shards unchanged and replies `Bulk` or `Null`; others panic; the result agrees with `Respond` |
| Server.Database.Process | src/bin/server.rs:33-61 | the loop's replies, final shards and panic are exactly those of `Serve` |

## Left out

- Threads, sleeping and clocks. Each worker thread's wake-up is the atomic
  action `Fire` or `WorkerWake`. Clock readings are parameters, in
  milliseconds.
- Channel blocking. A full `sync_channel` makes std's `SyncSender::send`
  block. The model treats a full queue as the `expect("too many tasks
  queued")` abort instead. `crossbeam`'s unbounded channel is a plain FIFO.
- Executor.Executor.Run: `disconnected` approximates sender liveness. A task
  still holding a future is taken to be parked with a live waker, so the real
  loop would block in `recv` rather than return.
- TokioTutorial.MiniTokio.Run: the real loop blocks for ever once the queue
  is empty, because the runtime keeps its own sender. The model stops there.
  Its contract covers only the tasks queued on entry, not the futures' final
  scripts.
- UnionFind.UnionFind.Find: the contract says every parent is either
  unchanged or now the node's root. It does not list exactly which nodes on
  the path were re-pointed.
- Futures themselves. Real futures are opaque code. The executors see only
  what each poll reports, so futures are scripts of poll outcomes, and a
  waker is named by the task it schedules.
- `Rc`/`Arc` reference counting, `Drop` impls and pinning. This includes
  `pinning.rs` and the `Rc::try_unwrap` calls in `third.rs` and `fourth.rs`.
  Ownership is not behaviour here.
- `fourth.rs`'s `IntoIter` and `Iter`. They have no `Iterator` impl, so there
  is nothing to drive.
- `peek_front_mut`/`peek_back_mut` return a `RefMut`. The model provides the
  write through it as one call taking the new value.
- Element widths. `first.rs` stores `i32` values as `int`. The lists do no
  arithmetic on elements, so nothing wraps.
- Network I/O. This covers sockets, `read_frame`'s read loop, stream write
  failures, the accept loop in `main`, and the clients. A `String` is
  represented by its UTF-8 bytes where it is frame text or a value (`Bytes`).
  Keys, and command names in `Server.Command`, are Dafny `string`s.
- The server's connection. `process` reads and writes frames through the
  `mini_redis` library's own `Connection` and `write_frame`, not those of the
  `my_redis` module. That library code is not part of this model, so nothing
  here says whether the write's `unwrap` at the end of each turn panics.
  `Server.RepliesReadable` states only what the `my_redis` writer would do
  with the replies.
- TokioTutorial.MiniTokio.PollTask: a scripted future that already reported
  `Ready` simply reports `Ready` again. A real future polled after completion
  may panic or misbehave, as `MainFuture` does, so the model does not
  distinguish that misuse. `TokioTutorial.PolledAgainAfterReady` shows that
  the runtime does poll such a task again.
- `mini_redis` library code. `Frame::check` and `Frame::parse` are inputs to
  `ParseFrame`. `Command::from_frame` is replaced by the `Command` datatype,
  and its `unwrap` panics are not modelled.
- The hash function. `DefaultHasher` is a parameter from keys to 64-bit
  values. The `Mutex` around each shard is not modelled, since each command
  holds it for its whole update.
- Array frames. Writing one is `unimplemented!()` in the code, and the
  reader does not read them.
- Debug printing (`dbgprint`, `server_dbg_print`, `client_dbg_print`), the
  demo `very-simple-future.rs` and module glue.

=== FILE: executor.dfy ===
/**
 * The hand-written executor of `asynchronous_programming_in_rust/executor.rs`.
 *
 * Task records are numbered in spawn order; `slots[t]` is the
 * `Mutex<Option<BoxFuture>>` of task `t` and the bounded `sync_channel` is the
 * FIFO `queue` of task ids. Every task record holds a clone of the same
 * sender, so a wake always re-enqueues onto this one queue. The ghost `log`
 * records every poll the run loop makes; the object invariant says that no
 * task is ever polled again after it reported `Ready`.
 */
module Executor {
  import opened Wrappers
  import opened Futures
  import TimerFuture

  /** `MAXED_QUEUED_TASKS`, the bound given to `sync_channel`. */
  const MaxQueuedTasks: nat := 10_000

  type TaskId = nat

  /** The abort raised by `expect("too many tasks queued")`. */
  datatype ExecError = TooManyTasksQueued

  /** One poll made by the run loop: which task, and what it reported. */
  datatype PollRecord = PollRecord(task: TaskId, poll: Poll)

  /** Polls still owed to the future in a slot (zero once the slot is empty). */
  function SlotWork(slot: Option<Fut>): nat
  {
    match slot
    case None => 0
    case Some(f) => PollsToReady(f)
  }

  /** In a poll log, an entry for a task that reported `Ready` is that task's last entry. */
  ghost predicate NoPollAfterReady(log: seq<PollRecord>)
  {
    forall i, j :: 0 <= i < j < |log| && log[i].task == log[j].task ==> log[i].poll == Pending
  }

  /** Every task in `q` is distinct and holds a future that is ready on its first poll. */
  ghost predicate AllReadyDistinct(q: seq<TaskId>, slots: seq<Option<Fut>>)
  {
    && (forall k :: 0 <= k < |q| ==> q[k] < |slots| && slots[q[k]] == Some(Fut([])))
    && (forall k, l :: 0 <= k < l < |q| ==> q[k] != q[l])
  }

  class Executor {
    /** Task ids waiting in the channel, oldest first. */
    var queue: seq<TaskId>
    /** The future slot of every task record spawned so far. */
    var slots: seq<Option<Fut>>
    /** Whether the `Spawner`, the original sender, has not been dropped. */
    var spawnerAlive: bool
    /** Every poll made by the run loop, in order. */
    ghost var log: seq<PollRecord>

    ghost predicate Valid()
      reads this
    {
      && |queue| <= MaxQueuedTasks
      && (forall k :: 0 <= k < |queue| ==> queue[k] < |slots|)
      && (forall i :: 0 <= i < |log| ==> log[i].task < |slots|)
      && (forall i :: 0 <= i < |log| && log[i].poll == Ready ==> slots[log[i].task] == None)
      && NoPollAfterReady(log)
    }

    /** Polls still owed to all spawned futures; the run loop's termination measure. */
    ghost function Work(): nat
      reads this
    {
      SumBy(slots, SlotWork)
    }

    /** `new_executor_and_spawner`: one empty channel shared by the executor and the spawner. */
    constructor ()
      ensures Valid()
      ensures queue == [] && slots == [] && spawnerAlive && log == []
    {
      queue, slots, spawnerAlive, log := [], [], true, [];
    }

    /**
     * `Spawner::spawn`: wraps the future in a fresh task record whose slot holds
     * `Some(future)` and sends that record. The returned id names the record.
     */
    method Spawn(f: Fut) returns (r: Result<TaskId, ExecError>)
      requires Valid() && spawnerAlive
      modifies this
      ensures Valid()
      ensures |old(queue)| < MaxQueuedTasks ==>
        && r == Success(|old(slots)|)
        && slots == old(slots) + [Some(f)]
        && queue == old(queue) + [|old(slots)|]
      ensures |old(queue)| >= MaxQueuedTasks ==>
        r == Failure(TooManyTasksQueued) && slots == old(slots) && queue == old(queue)
      ensures spawnerAlive && log == old(log)
    {
      if |queue| < MaxQueuedTasks {
        var t := |slots|;
        slots := slots + [Some(f)];
        queue := queue + [t];
        r := Success(t);
      } else {
        r := Failure(TooManyTasksQueued);
      }
    }

    /** Dropping the `Spawner`: only the senders held by task records remain. */
    method DropSpawner()
      requires Valid()
      modifies this
      ensures Valid()
      ensures !spawnerAlive && queue == old(queue) && slots == old(slots) && log == old(log)
    {
      spawnerAlive := false;
    }

    /**
     * `Task::wake_by_ref`: sends the very same task record onto the queue it was
     * created with, whatever state the task is in.
     */
    method Wake(t: TaskId) returns (r: Result<(), ExecError>)
      requires Valid() && t < |slots|
      modifies this
      ensures Valid()
      ensures |old(queue)| < MaxQueuedTasks ==> r == Success(()) && queue == old(queue) + [t]
      ensures |old(queue)| >= MaxQueuedTasks ==> r == Failure(TooManyTasksQueued) && queue == old(queue)
      ensures slots == old(slots) && spawnerAlive == old(spawnerAlive) && log == old(log)
    {
      if |queue| < MaxQueuedTasks {
        queue := queue + [t];
        r := Success(());
      } else {
        r := Failure(TooManyTasksQueued);
      }
    }

    /**
     * One iteration of the `while let` loop of `Executor::run`: receive the
     * oldest task, take the future out of its slot, poll it at most once and
     * put it back only if it reported `Pending`. A future that wakes its own
     * task during the poll re-enqueues it; the dequeue just made room for it.
     */
    method RunOnce() returns (polled: Option<Poll>)
      requires Valid() && |queue| > 0
      modifies this
      ensures Valid()
      ensures old(slots[queue[0]]).None? ==>
        polled == None && queue == old(queue[1..]) && slots == old(slots) && log == old(log)
      ensures old(slots[queue[0]]).Some? ==>
        var t := old(queue[0]);
        var o := PollFut(old(slots[t]).value);
        && polled == Some(o.poll)
        && log == old(log) + [PollRecord(t, o.poll)]
        && slots == old(slots)[t := if o.poll == Pending then Some(o.rest) else None]
        && queue == old(queue[1..]) + (if o.wakesSelf then [t] else [])
      ensures polled.Some? ==>
        forall i :: 0 <= i < |old(log)| && old(log)[i].task == old(queue[0]) ==> old(log)[i].poll == Pending
      ensures Work() < old(Work()) || (Work() == old(Work()) && |queue| < |old(queue)|)
      ensures spawnerAlive == old(spawnerAlive)
    {
      var t := queue[0];
      queue := queue[1..];
      match slots[t]
      case None =>
        polled := None;
      case Some(f) =>
        SumByUpdate(slots, t, None, SlotWork);
        slots := slots[t := None];
        var o := PollFut(f);
        if o.wakesSelf {
          queue := queue + [t];
        }
        if o.poll == Pending {
          SumByUpdate(slots, t, Some(o.rest), SlotWork);
          slots := slots[t := Some(o.rest)];
        }
        log := log + [PollRecord(t, o.poll)];
        polled := Some(o.poll);
    }

    /**
     * `Executor::run`: poll tasks in FIFO order until the queue is empty. The
     * real loop then returns only if `recv` fails, that is, once the spawner
     * and every task record's sender are gone; `disconnected` says whether that
     * is the case. A task left with a future in its slot is parked and its
     * waker is taken to be held by whoever will wake it, so its sender is
     * alive and the real loop would block in `recv` instead of returning.
     * When the queue holds distinct tasks whose futures are ready on their
     * first poll, they complete in queue order.
     */
    method Run() returns (disconnected: bool)
      requires Valid()
      modifies this
      ensures Valid() && queue == []
      ensures disconnected <==> !spawnerAlive && forall t :: 0 <= t < |slots| ==> slots[t] == None
      ensures |slots| == |old(slots)| && spawnerAlive == old(spawnerAlive)
      ensures old(log) <= log
      ensures old(queue) == [] ==> slots == old(slots) && log == old(log)
      ensures AllReadyDistinct(old(queue), old(slots)) ==>
        log == old(log) + seq(|old(queue)|, k requires 0 <= k < |old(queue)| => PollRecord(old(queue)[k], Ready))
    {
      ghost var q0, log0 := queue, log;
      ghost var fifo := AllReadyDistinct(queue, slots);
      ghost var done := 0;
      while |queue| > 0
        invariant Valid()
        invariant |slots| == |old(slots)| && spawnerAlive == old(spawnerAlive)
        invariant log0 <= log
        invariant q0 == [] ==> slots == old(slots) && log == log0
        invariant fifo ==> 0 <= done <= |q0| && queue == q0[done..]
        invariant fifo ==> log == log0 + seq(done, k requires 0 <= k < done => PollRecord(q0[k], Ready))
        invariant fifo ==> forall k :: done <= k < |q0| ==> slots[q0[k]] == Some(Fut([]))
        decreases Work(), |queue|
      {
        ghost var logBefore := log;
        var _ := RunOnce();
        if fifo {
          assert log == logBefore + [PollRecord(q0[done], Ready)];
          assert seq(done + 1, k requires 0 <= k < done + 1 => PollRecord(q0[k], Ready))
              == seq(done, k requires 0 <= k < done => PollRecord(q0[k], Ready)) + [PollRecord(q0[done], Ready)];
          done := done + 1;
        }
      }
      disconnected := !spawnerAlive && forall t :: 0 <= t < |slots| ==> slots[t] == None;
    }
  }

  /**
   * The scenario of the executor's own test, with the `TimerFuture` it
   * awaits (`PollFirePoll` steps that timer). The task's first poll polls the
   * timer, which is not completed yet, so it stores the task's waker and the
   * task is pending; the loop then has nothing to run and cannot return. When
   * the timer's worker fires it wakes exactly that waker, which re-enqueues
   * the task; the second poll finds the timer completed, the task is ready
   * and the loop returns.
   */
  method TimerTaskScenario() returns (firstExit: bool, woken: Option<WakerId>, secondExit: bool)
    ensures !firstExit && secondExit
    ensures woken == Some(0)
  {
    var t1, t2;
    t1, woken, t2 := TimerFuture.PollFirePoll(0);
    var ex := new Executor();
    var r := ex.Spawn(Fut([false]));
    assert r == Success(0);
    ex.DropSpawner();
    var p := ex.RunOnce();
    assert p == Some(t1);
    firstExit := ex.Run();
    var w := ex.Wake(woken.value);
    var p2 := ex.RunOnce();
    assert p2 == Some(t2);
    secondExit := ex.Run();
    assert ex.log == [PollRecord(0, Pending), PollRecord(0, Ready)];
  }
}

=== FILE: first.dfy ===
/**
 * The owned stack of `entirely_too_many_lists/first.rs`: a `List` whose
 * `head` is a chain of boxed nodes. A box is owned by exactly one link, so
 * the chain is a value (`Link`); the list object's `head` is what `push` and
 * `pop` swap out and replace.
 */
module FirstList {
  import opened Wrappers

  /** `Link`: `Nil`, or a boxed node holding a 32-bit element and the rest. */
  datatype Link = Nil | More(elem: int, next: Link)

  /** The elements of a chain, from the head down. */
  function Elems(l: Link): seq<int>
  {
    match l
    case Nil => []
    case More(e, next) => [e] + Elems(next)
  }

  /** The chain `push` builds: a new node in front of the old head. */
  function Pushed(l: Link, x: int): (r: Link)
    ensures Elems(r) == [x] + Elems(l)
  {
    More(x, l)
  }

  /** What `pop` returns and the chain it leaves behind. */
  function Popped(l: Link): (r: (Option<int>, Link))
    ensures l == Nil ==> r == (None, Nil)
    ensures |Elems(l)| > 0 ==> r.0 == Some(Elems(l)[0]) && Elems(r.1) == Elems(l)[1..]
  {
    match l
    case Nil => (None, Nil)
    case More(e, next) => (Some(e), next)
  }

  /** A push followed by a pop gives back the element and the chain as it was. */
  lemma PushThenPop(l: Link, x: int)
    ensures Popped(Pushed(l, x)) == (Some(x), l)
  {
  }

  /** The chain after pushing every element of `xs`, first to last. */
  function PushAll(l: Link, xs: seq<int>): Link
    decreases |xs|
  {
    if xs == [] then l else PushAll(Pushed(l, xs[0]), xs[1..])
  }

  /** What `n` successive pops return, and the chain they leave behind. */
  function PopMany(l: Link, n: nat): (seq<Option<int>>, Link)
  {
    if n == 0 then ([], l)
    else
      var (x, rest) := Popped(l);
      var (xs, last) := PopMany(rest, n - 1);
      ([x] + xs, last)
  }

  /** The elements of `xs` in reverse order, each wrapped in `Some`. */
  function ReversedSome(xs: seq<int>): (r: seq<Option<int>>)
    ensures |r| == |xs|
    ensures forall k :: 0 <= k < |xs| ==> r[k] == Some(xs[|xs| - 1 - k])
  {
    if xs == [] then [] else [Some(xs[|xs| - 1])] + ReversedSome(xs[..|xs| - 1])
  }

  /**
   * Last in, first out: after pushing `xs`, as many pops return the elements
   * of `xs` latest first and leave the chain exactly as it was before.
   */
  lemma {:induction false} PushAllThenPopMany(l: Link, xs: seq<int>)
    ensures PopMany(PushAll(l, xs), |xs|) == (ReversedSome(xs), l)
  {
    if xs != [] {
      var init, last := xs[..|xs| - 1], xs[|xs| - 1];
      assert xs == init + [last];
      PushAllSnoc(l, init, last);
      PushAllThenPopMany(l, init);
      assert PopMany(Pushed(PushAll(l, init), last), |xs|) == ([Some(last)] + ReversedSome(init), l);
    }
  }

  /** Pushing `xs + [x]` is pushing `xs` and then `x`. */
  lemma {:induction false} PushAllSnoc(l: Link, xs: seq<int>, x: int)
    ensures PushAll(l, xs + [x]) == Pushed(PushAll(l, xs), x)
    decreases |xs|
  {
    if xs == [] {
      assert [x][1..] == [];
    } else {
      assert (xs + [x])[1..] == xs[1..] + [x];
      PushAllSnoc(Pushed(l, xs[0]), xs[1..], x);
    }
  }

  class List {
    var head: Link

    /** The elements, top of the stack first. */
    function Contents(): seq<int>
      reads this
    {
      Elems(head)
    }

    /** `List::new`. */
    constructor ()
      ensures Contents() == []
    {
      head := Nil;
    }

    /** `List::push`: the new element goes on top. */
    method Push(x: int)
      modifies this
      ensures head == Pushed(old(head), x)
      ensures Contents() == [x] + old(Contents())
    {
      var next := head;
      head := Nil;
      head := More(x, next);
    }

    /** `List::pop`: the top element, or `None` on an empty list. */
    method Pop() returns (r: Option<int>)
      modifies this
      ensures (r, head) == Popped(old(head))
      ensures old(Contents()) == [] ==> r == None && Contents() == []
      ensures old(Contents()) != [] ==> r == Some(old(Contents())[0]) && Contents() == old(Contents())[1..]
    {
      var old_head := head;
      head := Nil;
      match old_head
      case Nil =>
        r := None;
      case More(e, next) =>
        head := next;
        r := Some(e);
    }
  }

  /**
   * The `basics` test: pushes and pops interleaved on one list come back in
   * last-in, first-out order. `popped` lists what every `pop` returned.
   */
  method Basics() returns (popped: seq<Option<int>>)
    ensures popped == [None, Some(3), Some(2), Some(5), Some(4), Some(1), None]
  {
    var list := new List();
    var a := list.Pop();
    list.Push(1);
    list.Push(2);
    list.Push(3);
    var b := list.Pop();
    var c := list.Pop();
    list.Push(4);
    list.Push(5);
    var d := list.Pop();
    var e := list.Pop();
    var f := list.Pop();
    var g := list.Pop();
    popped := [a, b, c, d, e, f, g];
  }
}

=== FILE: fourth.dfy ===
/**
 * The doubly-linked deque of `entirely_too_many_lists/fourth.rs`. Every node
 * is an `Rc<RefCell<Node>>` whose `elem`, `next` and `prev` are rewritten in
 * place through `borrow_mut`, so a node is an object. The ghost sequence
 * `nodes` lists the nodes from head to tail and `contents` their elements.
 */
module FourthList {
  import opened Wrappers

  class Node<T> {
    var elem: T
    var next: Node?<T>
    var prev: Node?<T>

    /** `Node::new`: an unlinked node. */
    constructor (elem: T)
      ensures this.elem == elem && next == null && prev == null
    {
      this.elem := elem;
      next := null;
      prev := null;
    }
  }

  class List<T> {
    var head: Node?<T>
    var tail: Node?<T>
    ghost var nodes: seq<Node<T>>
    ghost var contents: seq<T>

    /** The nodes of the deque. */
    ghost function Repr(): set<Node<T>>
      reads this
    {
      set n | n in nodes
    }

    /**
     * `head` and `tail` are both `None` exactly when the deque is empty and
     * otherwise the first and last node; the head has no `prev`, the tail no
     * `next`, and each node's `next` has that node as its `prev`.
     */
    ghost predicate Valid()
      reads this, Repr()
    {
      && |nodes| == |contents|
      && (forall i :: 0 <= i < |nodes| ==> nodes[i].elem == contents[i])
      && (forall i, j :: 0 <= i < j < |nodes| ==> nodes[i] != nodes[j])
      && (nodes == [] ==> head == null && tail == null)
      && (nodes != [] ==>
            && head == nodes[0] && tail == nodes[|nodes| - 1]
            && nodes[0].prev == null && nodes[|nodes| - 1].next == null)
      && (forall i :: 0 <= i < |nodes| - 1 ==> nodes[i].next == nodes[i + 1])
      && (forall i :: 0 < i < |nodes| ==> nodes[i].prev == nodes[i - 1])
    }

    /** `List::new`. */
    constructor ()
      ensures Valid() && contents == [] && nodes == []
    {
      head, tail := null, null;
      nodes, contents := [], [];
    }

    /** `List::push_front`: a new node in front of the old head. */
    method PushFront(x: T)
      requires Valid()
      modifies this, Repr()
      ensures Valid() && contents == [x] + old(contents)
      ensures fresh(nodes[0]) && nodes[1..] == old(nodes)
    {
      var n := new Node(x);
      if head != null {
        head.prev := n;
        n.next := head;
        head := n;
      } else {
        tail := n;
        head := n;
      }
      nodes := [n] + nodes;
      contents := [x] + contents;
    }

    /** `List::push_back`: a new node after the old tail. */
    method PushBack(x: T)
      requires Valid()
      modifies this, Repr()
      ensures Valid() && contents == old(contents) + [x]
      ensures fresh(nodes[|nodes| - 1]) && nodes[..|nodes| - 1] == old(nodes)
    {
      var n := new Node(x);
      if tail != null {
        tail.next := n;
        n.prev := tail;
        tail := n;
      } else {
        tail := n;
        head := n;
      }
      nodes := nodes + [n];
      contents := contents + [x];
    }

    /**
     * `List::pop_front`: the first element, unlinking its node; `None` on an
     * empty deque. Popping the last element clears both `head` and `tail`.
     */
    method PopFront() returns (r: Option<T>)
      requires Valid()
      modifies this, Repr()
      ensures Valid()
      ensures old(contents) == [] ==> r == None && contents == [] && nodes == old(nodes)
      ensures old(contents) != [] ==>
        r == Some(old(contents)[0]) && contents == old(contents)[1..] && nodes == old(nodes)[1..]
      ensures contents == [] ==> head == null && tail == null
    {
      if head == null {
        return None;
      }
      var old_head := head;
      head := null;
      var next := old_head.next;
      assert next == if |nodes| > 1 then nodes[1] else null;
      old_head.next := null;
      if next != null {
        next.prev := null;
        head := next;
      } else {
        tail := null;
      }
      r := Some(old_head.elem);
      nodes := nodes[1..];
      contents := contents[1..];
    }

    /**
     * `List::pop_back`: the last element, unlinking its node; `None` on an
     * empty deque. Popping the last element clears both `head` and `tail`.
     */
    method PopBack() returns (r: Option<T>)
      requires Valid()
      modifies this, Repr()
      ensures Valid()
      ensures old(contents) == [] ==> r == None && contents == [] && nodes == old(nodes)
      ensures old(contents) != [] ==>
        && r == Some(old(contents)[|old(contents)| - 1])
        && contents == old(contents)[..|old(contents)| - 1]
        && nodes == old(nodes)[..|old(nodes)| - 1]
      ensures contents == [] ==> head == null && tail == null
    {
      if tail == null {
        return None;
      }
      var old_tail := tail;
      tail := null;
      var prev := old_tail.prev;
      assert prev == if |nodes| > 1 then nodes[|nodes| - 2] else null;
      old_tail.prev := null;
      if prev != null {
        prev.next := null;
        tail := prev;
      } else {
        head := null;
      }
      r := Some(old_tail.elem);
      nodes := nodes[..|nodes| - 1];
      contents := contents[..|contents| - 1];
    }

    /** `List::peek_front`: the first element, removing nothing. */
    method PeekFront() returns (r: Option<T>)
      requires Valid()
      ensures contents == [] ==> r == None
      ensures contents != [] ==> r == Some(contents[0])
    {
      if head == null {
        r := None;
      } else {
        r := Some(head.elem);
      }
    }

    /** `List::peek_back`: the last element, removing nothing. */
    method PeekBack() returns (r: Option<T>)
      requires Valid()
      ensures contents == [] ==> r == None
      ensures contents != [] ==> r == Some(contents[|contents| - 1])
    {
      if tail == null {
        r := None;
      } else {
        r := Some(tail.elem);
      }
    }

    /**
     * `List::peek_front_mut` followed by a write of `x` through the returned
     * `RefMut`: only the first element changes. On an empty deque there is no
     * reference to write through (`found` is false) and nothing changes.
     */
    method PeekFrontMut(x: T) returns (found: bool)
      requires Valid()
      modifies this, Repr()
      ensures Valid() && nodes == old(nodes) && head == old(head) && tail == old(tail)
      ensures found <==> old(contents) != []
      ensures found ==> contents == old(contents)[0 := x]
      ensures !found ==> contents == old(contents)
    {
      if head == null {
        return false;
      }
      head.elem := x;
      contents := contents[0 := x];
      found := true;
    }

    /**
     * `List::peek_back_mut` followed by a write of `x` through the returned
     * `RefMut`: only the last element changes.
     */
    method PeekBackMut(x: T) returns (found: bool)
      requires Valid()
      modifies this, Repr()
      ensures Valid() && nodes == old(nodes) && head == old(head) && tail == old(tail)
      ensures found <==> old(contents) != []
      ensures found ==> contents == old(contents)[|old(contents)| - 1 := x]
      ensures !found ==> contents == old(contents)
    {
      if tail == null {
        return false;
      }
      tail.elem := x;
      contents := contents[|contents| - 1 := x];
      found := true;
    }
  }

  /**
   * The examples of `new` and `push_front`: a single push of 3 in front pops
   * as 3. The `push_front` example expects 4 there, which the code does not
   * return.
   */
  method SinglePushExample() returns (single: Option<int>)
    ensures single == Some(3)
  {
    var one := new List<int>();
    one.PushFront(3);
    single := one.PopFront();
  }

  /** The example of `List`: 3 and then 4 pushed in front pop as 4, then 3, then nothing. */
  method FrontPushesExample() returns (popped: seq<Option<int>>)
    ensures popped == [Some(4), Some(3), None]
  {
    var list := new List<int>();
    list.PushFront(3);
    list.PushFront(4);
    var a := list.PopFront();
    var b := list.PopFront();
    var c := list.PopFront();
    popped := [a, b, c];
  }

  /** The example of `push_back`: 3 at the back and 4 in front pop from the front as 4, then 3, then nothing. */
  method PushBackExample() returns (popped: seq<Option<int>>)
    ensures popped == [Some(4), Some(3), None]
  {
    var lst := new List<int>();
    lst.PushBack(3);
    lst.PushFront(4);
    var a := lst.PopFront();
    var b := lst.PopFront();
    var c := lst.PopFront();
    popped := [a, b, c];
  }

  /** The example of `pop_back`: 3 at the back and 4 in front pop back as 3, then 4. */
  method BackExample() returns (popped: seq<Option<int>>)
    ensures popped == [Some(3), Some(4), None]
  {
    var lst := new List<int>();
    lst.PushBack(3);
    lst.PushFront(4);
    var a := lst.PopBack();
    var b := lst.PopBack();
    var c := lst.PopFront();
    popped := [a, b, c];
  }

  /**
   * The examples of `peek_back`, `peek_back_mut` and `peek_front_mut`: a
   * one-element deque peeks 3 at its back and nothing once popped; writing 4
   * through either end's mutable reference makes `pop_back` return 4.
   */
  method PeekExamples() returns (peeked: Option<int>, afterPop: Option<int>, viaBack: Option<int>, viaFront: Option<int>)
    ensures peeked == Some(3) && afterPop == None
    ensures viaBack == Some(4) && viaFront == Some(4)
  {
    var lst := new List<int>();
    lst.PushFront(3);
    peeked := lst.PeekBack();
    var _ := lst.PopBack();
    afterPop := lst.PeekBack();
    var l2 := new List<int>();
    l2.PushFront(3);
    var _ := l2.PeekBackMut(4);
    viaBack := l2.PopBack();
    var l3 := new List<int>();
    l3.PushBack(3);
    var _ := l3.PeekFrontMut(4);
    viaFront := l3.PopBack();
  }
}

=== FILE: futures.dfy ===
/**
 * Abstract computations ("futures") as the executors see them.
 *
 * A real future is opaque code; the executors only observe what each poll
 * reports. A `Fut` is therefore a script: it reports `Pending` once per entry
 * of `pending` and `Ready` once the script is used up. An entry is `true` when
 * that poll wakes its own task (calls `wake_by_ref` on the context's waker)
 * before returning `Pending`.
 */
module Futures {

  /** What one poll reports (`std::task::Poll<()>`). */
  datatype Poll = Ready | Pending

  /** A waker is identified by the task it re-schedules. */
  type WakerId = nat

  datatype Fut = Fut(pending: seq<bool>)

  /** What the executor observes of one poll, and the future left afterwards. */
  datatype PollOutcome = PollOutcome(poll: Poll, wakesSelf: bool, rest: Fut)

  /** One poll of a scripted future. */
  function PollFut(f: Fut): (o: PollOutcome)
    ensures o.poll == Ready <==> f.pending == []
    ensures o.poll == Ready ==> !o.wakesSelf && o.rest == f
    ensures o.poll == Pending ==> [o.wakesSelf] + o.rest.pending == f.pending
  {
    if f.pending == [] then PollOutcome(Ready, false, f)
    else PollOutcome(Pending, f.pending[0], Fut(f.pending[1..]))
  }

  /** The number of polls a future needs until it reports `Ready`. */
  function PollsToReady(f: Fut): (n: nat)
    ensures n >= 1
  {
    |f.pending| + 1
  }

  /** Sum of the weights of the elements of a sequence. */
  function SumBy<T>(s: seq<T>, w: T -> nat): nat
  {
    if s == [] then 0 else SumBy(s[..|s| - 1], w) + w(s[|s| - 1])
  }

  /** Replacing one element changes the sum by the difference of the weights. */
  lemma {:induction false} SumByUpdate<T>(s: seq<T>, i: nat, v: T, w: T -> nat)
    requires i < |s|
    ensures SumBy(s[i := v], w) + w(s[i]) == SumBy(s, w) + w(v)
  {
    var n := |s| - 1;
    if i < n {
      assert s[i := v][..n] == s[..n][i := v];
      SumByUpdate(s[..n], i, v, w);
    } else {
      assert s[i := v][..n] == s[..n];
    }
  }
}

=== FILE: my_redis.dfy ===
/**
 * The shared database and the frame writer of `my_redis/mod.rs`.
 *
 * A frame is written in RESP2, the Redis serialization protocol: a type byte,
 * then a line ended by CR LF (and for a bulk string, the payload and another
 * CR LF). `WriteFrame` is the sequence of bytes `write_frame` sends to the
 * stream together with how the call ends. `Decode` is an independent reader
 * of the same protocol, against which the writer is checked. Frame text and
 * stored values are bytes (a Rust `String` in a frame by its UTF-8 bytes);
 * keys are Dafny strings.
 */
module MyRedis {
  import opened Wrappers

  newtype byte = b: int | 0 <= b < 256

  type Bytes = seq<byte>

  /** Values of Rust's `u64`. */
  type U64 = x: nat | x < 0x1_0000_0000_0000_0000

  /** One shard: a `HashMap<String, Bytes>` (its `Mutex` is not modelled). */
  type Db = map<string, Bytes>

  const CR: byte := 13
  const LF: byte := 10
  const CRLF: Bytes := [CR, LF]
  const Plus: byte := 43
  const Minus: byte := 45
  const Colon: byte := 58
  const Dollar: byte := 36
  const Zero: byte := 48
  const One: byte := 49

  /** What `Null` is written as: `$-1` and CR LF. */
  const NullBytes: Bytes := [Dollar, Minus, One, CR, LF]

  /** The size of the buffer `write_decimal` formats into. */
  const DecimalBufferSize: nat := 12

  /**
   * `new_shared_db`: `n` shards, each an empty map, pushed one at a time.
   */
  method NewSharedDb(n: nat) returns (db: seq<Db>)
    ensures |db| == n
    ensures forall i :: 0 <= i < n ==> db[i] == map[]
  {
    db := [];
    for k := 0 to n
      invariant |db| == k
      invariant forall i :: 0 <= i < k ==> db[i] == map[]
    {
      db := db + [map[]];
    }
  }

  /**
   * `get_db`: the shard of `key`, the key's 64-bit hash modulo the number of
   * shards. A remainder by zero panics, so there must be a shard. The hasher
   * is a parameter; being a function, it picks the same shard for the same key.
   */
  function GetDb(hash: string -> U64, shards: nat, key: string): (i: nat)
    requires shards > 0
    ensures i < shards
    ensures shards == 1 ==> i == 0
  {
    hash(key) % shards
  }

  /** The frames of `mini_redis`. */
  datatype Frame =
    | Simple(text: Bytes)
    | Error(text: Bytes)
    | Integer(value: U64)
    | Bulk(data: Bytes)
    | Null
    | Array(items: seq<Frame>)

  function Pow10(k: nat): (p: nat)
    ensures p >= 1
  {
    if k == 0 then 1 else 10 * Pow10(k - 1)
  }

  predicate IsDigit(b: byte)
  {
    Zero <= b < Zero + 10
  }

  /** A non-empty run of ASCII digits. */
  predicate IsDigits(s: Bytes)
  {
    |s| > 0 && forall i :: 0 <= i < |s| ==> IsDigit(s[i])
  }

  /** The ASCII decimal digits of `v`, as `{}` formats a `u64`. */
  function Decimal(v: nat): (r: Bytes)
    ensures IsDigits(r)
    ensures r[0] == Zero ==> v == 0
  {
    if v < 10 then [Zero + v as byte] else Decimal(v / 10) + [Zero + (v % 10) as byte]
  }

  /** The value of a run of decimal digits. */
  function ParseDecimal(s: Bytes): nat
    requires forall i :: 0 <= i < |s| ==> IsDigit(s[i])
  {
    if s == [] then 0
    else
      assert IsDigit(s[|s| - 1]);
      10 * ParseDecimal(s[..|s| - 1]) + (s[|s| - 1] as int - Zero as int)
  }

  /** Reading back the digits of `v` gives `v`. */
  lemma {:induction false} DecimalRoundTrip(v: nat)
    ensures ParseDecimal(Decimal(v)) == v
  {
    if v >= 10 {
      var s := Decimal(v);
      assert s[..|s| - 1] == Decimal(v / 10);
      DecimalRoundTrip(v / 10);
    }
  }

  /** `v` has at most `k` digits exactly when it is below `10^k`. */
  lemma {:induction false} DecimalLength(v: nat, k: nat)
    requires k >= 1
    ensures |Decimal(v)| <= k <==> v < Pow10(k)
  {
    if v >= 10 && k >= 2 {
      DecimalLength(v / 10, k - 1);
    }
  }

  /** `DecimalBufferSize` digits hold exactly the values below `10^12`. */
  lemma DecimalFits(v: nat)
    ensures |Decimal(v)| <= DecimalBufferSize <==> v < Pow10(DecimalBufferSize)
  {
    DecimalLength(v, DecimalBufferSize);
  }

  /**
   * `write_decimal`: the digits and CR LF, or `None` when formatting into the
   * 12-byte buffer fails, before anything reaches the stream.
   */
  function WriteDecimal(v: nat): (r: Option<Bytes>)
    ensures r.Some? <==> v < Pow10(DecimalBufferSize)
    ensures r.Some? ==> r.value == Decimal(v) + CRLF
  {
    DecimalFits(v);
    var digits := Decimal(v);
    if |digits| <= DecimalBufferSize then Some(digits + CRLF) else None
  }

  /**
   * How a `write_frame` call ends: `Ok(())` after the flush, an I/O error
   * (`write_decimal`'s buffer was too small), or the `unimplemented!()` panic.
   */
  datatype WriteStatus = Flushed | IoError | Unimplemented

  /** The bytes a `write_frame` call sent to the stream, and how it ended. */
  datatype Written = Written(bytes: Bytes, status: WriteStatus)

  /** The frames `write_frame` writes in full: all but arrays and over-long numbers. */
  predicate Writable(f: Frame)
  {
    match f
    case Integer(v) => v < Pow10(DecimalBufferSize)
    case Bulk(data) => |data| < Pow10(DecimalBufferSize)
    case Array(_) => false
    case _ => true
  }

  /** The type byte that starts the encoding of `f`. */
  function TypeByte(f: Frame): byte
  {
    match f
    case Simple(_) => Plus
    case Error(_) => Minus
    case Integer(_) => Colon
    case Bulk(_) => Dollar
    case Null => Dollar
    case Array(_) => 42
  }

  /**
   * `write_frame`. A frame it cannot write in full ends the call early: an
   * over-long number leaves only the type byte on the stream, and an array
   * panics before writing anything.
   */
  function WriteFrame(f: Frame): (w: Written)
    ensures w.status == Flushed <==> Writable(f)
    ensures w.status == Unimplemented <==> f.Array?
    ensures w.status == IoError ==> w.bytes == [TypeByte(f)]
    ensures w.status == Unimplemented ==> w.bytes == []
    ensures w.bytes != [] ==> w.bytes[0] == TypeByte(f)
  {
    match f
    case Simple(text) => Written([Plus] + text + CRLF, Flushed)
    case Error(text) => Written([Minus] + text + CRLF, Flushed)
    case Integer(v) =>
      (match WriteDecimal(v)
       case Some(line) => Written([Colon] + line, Flushed)
       case None => Written([Colon], IoError))
    case Null => Written(NullBytes, Flushed)
    case Bulk(data) =>
      (match WriteDecimal(|data|)
       case Some(line) => Written([Dollar] + line + data + CRLF, Flushed)
       case None => Written([Dollar], IoError))
    case Array(_) => Written([], Unimplemented)
  }

  /**
   * The line at the start of `s`: the bytes before the first CR, and how many
   * bytes the line takes with its CR LF; `None` if there is no CR or it is
   * not followed by LF.
   */
  function Line(s: Bytes): (r: Option<(Bytes, nat)>)
    ensures r.Some? ==> r.value.1 == |r.value.0| + 2 <= |s|
  {
    if |s| == 0 then None
    else if s[0] == CR then (if |s| >= 2 && s[1] == LF then Some(([], 2)) else None)
    else match Line(s[1..])
      case None => None
      case Some((t, n)) => Some(([s[0]] + t, n + 1))
  }

  /** A line holding no CR is read back whole, whatever follows it. */
  lemma {:induction false} LineRoundTrip(t: Bytes, rest: Bytes)
    requires CR !in t
    ensures Line(t + CRLF + rest) == Some((t, |t| + 2))
  {
    if t != [] {
      assert (t + CRLF + rest)[1..] == t[1..] + CRLF + rest;
      assert t[0] in t;
      LineRoundTrip(t[1..], rest);
      assert [t[0]] + t[1..] == t;
    }
  }

  /**
   * A reader of one RESP2 frame at the start of `s`: the frame and the number
   * of bytes it takes, or `None` if `s` does not start with a whole frame.
   * Arrays are not read.
   */
  function Decode(s: Bytes): Option<(Frame, nat)>
  {
    if |s| == 0 then None
    else match Line(s[1..])
      case None => None
      case Some((line, n)) =>
        if s[0] == Dollar then DecodeDollar(s, line, 1 + n) else DecodeLine(s[0], line, 1 + n)
  }

  /** A frame that is its type byte and one line, taking `n` bytes in all. */
  function DecodeLine(tag: byte, line: Bytes, n: nat): Option<(Frame, nat)>
  {
    if tag == Plus then Some((Simple(line), n))
    else if tag == Minus then Some((Error(line), n))
    else if tag == Colon && IsDigits(line) && ParseDecimal(line) < 0x1_0000_0000_0000_0000 then
      Some((Integer(ParseDecimal(line)), n))
    else None
  }

  /**
   * A frame starting with `$` whose header line `line` takes the first `n`
   * bytes of `s`: `Null`, or a bulk string whose length the line gives.
   */
  function DecodeDollar(s: Bytes, line: Bytes, n: nat): Option<(Frame, nat)>
  {
    if line == [Minus, One] then Some((Null, n))
    else if IsDigits(line) then
      var len := ParseDecimal(line);
      if n + len + 2 <= |s| && s[n + len] == CR && s[n + len + 1] == LF
      then Some((Bulk(s[n..n + len]), n + len + 2))
      else None
    else None
  }

  /** The frames a reader gets back: simple strings and errors may not hold a CR. */
  predicate Readable(f: Frame)
  {
    && Writable(f)
    && (f.Simple? ==> CR !in f.text)
    && (f.Error? ==> CR !in f.text)
  }

  /** A frame written as a type byte and one line is read back from that line. */
  lemma LineFrameRoundTrip(tag: byte, text: Bytes, rest: Bytes)
    requires CR !in text
    ensures ([tag] + text + CRLF + rest)[0] == tag
    ensures Line(([tag] + text + CRLF + rest)[1..]) == Some((text, |text| + 2))
  {
    assert ([tag] + text + CRLF + rest)[1..] == text + CRLF + rest;
    LineRoundTrip(text, rest);
  }

  /** A simple string without CR is read back, taking exactly the bytes written. */
  lemma SimpleRoundTrip(text: Bytes, rest: Bytes)
    requires CR !in text
    ensures Decode(WriteFrame(Simple(text)).bytes + rest) == Some((Simple(text), |text| + 3))
    ensures Decode(WriteFrame(Error(text)).bytes + rest) == Some((Error(text), |text| + 3))
  {
    LineFrameRoundTrip(Plus, text, rest);
    LineFrameRoundTrip(Minus, text, rest);
  }

  /** An integer below `10^12` is read back, taking exactly the bytes written. */
  lemma IntegerRoundTrip(v: U64, rest: Bytes)
    requires v < Pow10(DecimalBufferSize)
    ensures Decode(WriteFrame(Integer(v)).bytes + rest) == Some((Integer(v), |Decimal(v)| + 3))
  {
    var digits := Decimal(v);
    assert WriteFrame(Integer(v)).bytes == [Colon] + digits + CRLF;
    assert CR !in digits by {
      assert forall i :: 0 <= i < |digits| ==> IsDigit(digits[i]);
    }
    LineFrameRoundTrip(Colon, digits, rest);
    DecimalRoundTrip(v);
  }

  /** `Null` is read back, taking exactly its five bytes. */
  lemma NullRoundTrip(rest: Bytes)
    ensures Decode(WriteFrame(Null).bytes + rest) == Some((Null, 5))
  {
    assert NullBytes == [Dollar] + [Minus, One] + CRLF;
    LineFrameRoundTrip(Dollar, [Minus, One], rest);
  }

  /** A bulk string shorter than `10^12` bytes is read back, taking exactly the bytes written. */
  lemma BulkRoundTrip(data: Bytes, rest: Bytes)
    requires |data| < Pow10(DecimalBufferSize)
    ensures Decode(WriteFrame(Bulk(data)).bytes + rest) == Some((Bulk(data), |Decimal(|data|)| + |data| + 5))
  {
    var digits := Decimal(|data|);
    var prefix := [Dollar] + digits + CRLF;
    var s := prefix + (data + (CRLF + rest));
    assert WriteFrame(Bulk(data)).bytes + rest == s;
    assert CR !in digits by {
      assert forall i :: 0 <= i < |digits| ==> IsDigit(digits[i]);
    }
    LineFrameRoundTrip(Dollar, digits, data + (CRLF + rest));
    assert [Dollar] + digits + CRLF + (data + (CRLF + rest)) == s;
    assert Decode(s) == DecodeDollar(s, digits, |prefix|);
    DecimalRoundTrip(|data|);
    assert digits != [Minus, One] by {
      assert IsDigit(digits[0]);
    }
    BulkPayload(prefix, data, rest);
  }

  /** The payload and the CR LF after it sit right after the header line. */
  lemma BulkPayload(prefix: Bytes, data: Bytes, rest: Bytes)
    ensures var s := prefix + (data + (CRLF + rest));
      && |prefix| + |data| + 2 <= |s|
      && s[|prefix|..|prefix| + |data|] == data
      && s[|prefix| + |data|] == CR && s[|prefix| + |data| + 1] == LF
  {
  }

  /**
   * `write_frame` sends the text of a simple string or error unchecked, so a
   * text holding CR LF is written in full but read back as a different, shorter
   * frame: `+a` CR LF `b` CR LF reads as the simple string `a`, taking 4 of
   * the 7 bytes. This is why the round trips exclude a CR in such text.
   */
  lemma CrInSimpleTextDoesNotReadBack()
    ensures WriteFrame(Simple([97, 13, 10, 98])).status == Flushed
    ensures WriteFrame(Simple([97, 13, 10, 98])).bytes == [Plus, 97, 13, 10, 98, CR, LF]
    ensures Decode(WriteFrame(Simple([97, 13, 10, 98])).bytes) == Some((Simple([97]), 4))
  {
    var bytes := WriteFrame(Simple([97, 13, 10, 98])).bytes;
    assert bytes[1..] == [97] + CRLF + [98, CR, LF];
    LineRoundTrip([97], [98, CR, LF]);
  }

  /**
   * Round trip: every frame written in full whose simple or error text holds
   * no CR is read back as the same frame, taking exactly the bytes written,
   * whatever follows on the stream.
   */
  lemma WriteThenDecode(f: Frame, rest: Bytes)
    requires Readable(f)
    ensures WriteFrame(f).status == Flushed
    ensures Decode(WriteFrame(f).bytes + rest) == Some((f, |WriteFrame(f).bytes|))
  {
    match f
    case Simple(text) => SimpleRoundTrip(text, rest);
    case Error(text) => SimpleRoundTrip(text, rest);
    case Integer(v) => IntegerRoundTrip(v, rest);
    case Null => NullRoundTrip(rest);
    case Bulk(data) => BulkRoundTrip(data, rest);
  }

  /** The outcome of `mini_redis`'s `Frame::check` on the read buffer. */
  datatype CheckOutcome = CheckOk(len: nat) | Incomplete | CheckError(message: string)

  /** A connection's read buffer; the socket itself is not modelled. */
  class Connection {
    var buffer: Bytes

    /** `Connection::new`: an empty buffer. */
    constructor ()
      ensures buffer == []
    {
      buffer := [];
    }

    /**
     * `Connection::parse_frame`, given what `Frame::check` and then
     * `Frame::parse` report on the buffer. On `Incomplete` it yields `None`
     * and the buffer is untouched; a successful parse consumes exactly the
     * checked length; any error is passed on with the buffer untouched.
     * `check` only counts bytes present in the buffer.
     */
    method ParseFrame(check: CheckOutcome, parsed: Result<Frame, string>) returns (r: Result<Option<Frame>, string>)
      requires check.CheckOk? ==> check.len <= |buffer|
      modifies this
      ensures check == Incomplete ==> r == Success(None) && buffer == old(buffer)
      ensures check.CheckError? ==> r == Failure(check.message) && buffer == old(buffer)
      ensures check.CheckOk? && parsed.Failure? ==> r == Failure(parsed.error) && buffer == old(buffer)
      ensures check.CheckOk? && parsed.Success? ==>
        r == Success(Some(parsed.value)) && old(buffer) == old(buffer)[..check.len] + buffer
    {
      match check
      case CheckOk(len) =>
        if parsed.Failure? {
          return Failure(parsed.error);
        }
        buffer := buffer[len..];
        r := Success(Some(parsed.value));
      case Incomplete =>
        r := Success(None);
      case CheckError(e) =>
        r := Failure(e);
    }
  }
}

=== FILE: server.dfy ===
/**
 * The command handling of `bin/server.rs`: a database of eight shards, each a
 * map from keys to values, and a connection's loop that answers `Set` and
 * `Get` commands and panics on any other command. The value of a `Set` goes
 * into the shard `get_db` picks for its key, and a `Get` looks there.
 */
module Server {
  import opened Wrappers
  import opened MyRedis

  /** The number of shards `main` creates. */
  const NumShards: nat := 8

  /** The text of the reply to a `Set`: `OK`. */
  const OkText: Bytes := [79, 75]

  /** The commands a connection receives, already decoded from frames. */
  datatype Command = Get(key: string) | Set(key: string, value: Bytes) | Other(name: string)

  /** The value stored for `key`, found in the key's shard. */
  function Lookup(shards: seq<Db>, hash: string -> U64, key: string): Option<Bytes>
    requires |shards| > 0
  {
    var db := shards[GetDb(hash, |shards|, key)];
    if key in db then Some(db[key]) else None
  }

  /**
   * The shards after `insert(key, value)` into the key's shard: `key` now
   * holds `value`, replacing any earlier value, and no other key changes.
   */
  function Store(shards: seq<Db>, hash: string -> U64, key: string, value: Bytes): (r: seq<Db>)
    requires |shards| > 0
    ensures |r| == |shards|
    ensures Lookup(r, hash, key) == Some(value)
    ensures forall k :: k != key ==> Lookup(r, hash, k) == Lookup(shards, hash, k)
  {
    var i := GetDb(hash, |shards|, key);
    shards[i := shards[i][key := value]]
  }

  /**
   * The `match` in `process`: the reply to one command and the shards after
   * it, or the panic an unimplemented command raises.
   */
  function Respond(shards: seq<Db>, hash: string -> U64, cmd: Command): (r: Result<(Frame, seq<Db>), string>)
    requires |shards| > 0
    ensures r.Failure? <==> cmd.Other?
    ensures r.Success? ==> |r.value.1| == |shards|
    ensures cmd.Get? && Lookup(shards, hash, cmd.key).Some? ==>
      r == Success((Bulk(Lookup(shards, hash, cmd.key).value), shards))
    ensures cmd.Get? && Lookup(shards, hash, cmd.key).None? ==> r == Success((Null, shards))
    ensures cmd.Set? ==> r.value.0 == Simple(OkText)
    ensures cmd.Set? ==> Lookup(r.value.1, hash, cmd.key) == Some(cmd.value)
    ensures cmd.Set? ==> forall k :: k != cmd.key ==> Lookup(r.value.1, hash, k) == Lookup(shards, hash, k)
  {
    match cmd
    case Set(key, value) => Success((Simple(OkText), Store(shards, hash, key, value)))
    case Get(key) =>
      (match Lookup(shards, hash, key)
       case Some(v) => Success((Bulk(v), shards))
       case None => Success((Null, shards)))
    case Other(name) => Failure("Unimplemented " + name)
  }

  /** A `Get` after a `Set` of the same key replies with the value set. */
  lemma GetAfterSet(shards: seq<Db>, hash: string -> U64, key: string, value: Bytes)
    requires |shards| > 0
    ensures var after := Respond(shards, hash, Set(key, value)).value.1;
      Respond(after, hash, Get(key)) == Success((Bulk(value), after))
  {
  }

  /**
   * What a connection's loop does with the commands `cmds`: the replies, one
   * per command, the shards afterwards, and the panic that ended the loop
   * early, if any.
   */
  function Serve(shards: seq<Db>, hash: string -> U64, cmds: seq<Command>): (r: (seq<Frame>, seq<Db>, Option<string>))
    requires |shards| > 0
    ensures |r.1| == |shards|
    ensures r.2 == None ==> |r.0| == |cmds|
    ensures r.2.Some? ==> |r.0| < |cmds| && cmds[|r.0|].Other?
    ensures forall k :: 0 <= k < |r.0| ==> !cmds[k].Other?
    decreases |cmds|
  {
    if cmds == [] then ([], shards, None)
    else match Respond(shards, hash, cmds[0])
      case Failure(e) => ([], shards, Some(e))
      case Success((reply, next)) =>
        var (replies, last, panic) := Serve(next, hash, cmds[1..]);
        ([reply] + replies, last, panic)
  }

  /** `Serve` unfolded once: the first command's response, then the rest. */
  lemma ServeFirst(shards: seq<Db>, hash: string -> U64, cmds: seq<Command>)
    requires |shards| > 0 && cmds != []
    ensures var r := Respond(shards, hash, cmds[0]);
      && (r.Failure? ==> Serve(shards, hash, cmds) == ([], shards, Some(r.error)))
      && (r.Success? ==>
            var rest := Serve(r.value.1, hash, cmds[1..]);
            Serve(shards, hash, cmds) == ([r.value.0] + rest.0, rest.1, rest.2))
  {
  }

  /** Every stored value is shorter than `10^12` bytes. */
  predicate ShortValues(shards: seq<Db>)
  {
    forall i, k :: 0 <= i < |shards| && k in shards[i] ==> |shards[i][k]| < Pow10(DecimalBufferSize)
  }

  /**
   * As long as no value set is `10^12` bytes or longer, every reply the loop
   * makes is a frame that `MyRedis.WriteFrame` (the `write_frame` of the
   * `my_redis` module) writes in full and that the reader `Decode` gets back.
   * The server itself writes through the library's own connection, which is
   * not part of this model.
   */
  lemma {:induction false} RepliesReadable(shards: seq<Db>, hash: string -> U64, cmds: seq<Command>)
    requires |shards| > 0 && ShortValues(shards)
    requires forall k :: 0 <= k < |cmds| && cmds[k].Set? ==> |cmds[k].value| < Pow10(DecimalBufferSize)
    ensures ShortValues(Serve(shards, hash, cmds).1)
    ensures forall k :: 0 <= k < |Serve(shards, hash, cmds).0| ==> Readable(Serve(shards, hash, cmds).0[k])
    decreases |cmds|
  {
    if cmds != [] {
      var r := Respond(shards, hash, cmds[0]);
      if r.Success? {
        var next := r.value.1;
        assert ShortValues(next) by {
          if cmds[0].Set? {
            var i := GetDb(hash, |shards|, cmds[0].key);
            assert next == shards[i := shards[i][cmds[0].key := cmds[0].value]];
          }
        }
        assert Readable(r.value.0) by {
          if cmds[0].Get? && Lookup(shards, hash, cmds[0].key).Some? {
            var i := GetDb(hash, |shards|, cmds[0].key);
            assert cmds[0].key in shards[i];
          }
        }
        RepliesReadable(next, hash, cmds[1..]);
      }
    }
  }

  /** The sharded database shared by every connection. */
  class Database {
    const hash: string -> U64
    var shards: seq<Db>

    ghost predicate Valid()
      reads this
    {
      |shards| > 0
    }

    /** `main`'s `new_shared_db(8)`: eight empty shards. */
    constructor (hash: string -> U64)
      ensures Valid() && this.hash == hash
      ensures |shards| == NumShards && forall i :: 0 <= i < NumShards ==> shards[i] == map[]
    {
      var db := NewSharedDb(NumShards);
      this.hash := hash;
      shards := db;
    }

    /** One turn of `process`'s loop: answer `cmd`, updating its shard in place for a `Set`. */
    method Execute(cmd: Command) returns (r: Result<Frame, string>)
      requires Valid()
      modifies this
      ensures Valid()
      ensures r.Failure? <==> cmd.Other?
      ensures cmd.Get? ==> shards == old(shards)
      ensures cmd.Get? && cmd.key in shards[GetDb(hash, |shards|, cmd.key)] ==>
        r == Success(Bulk(shards[GetDb(hash, |shards|, cmd.key)][cmd.key]))
      ensures cmd.Get? && cmd.key !in shards[GetDb(hash, |shards|, cmd.key)] ==> r == Success(Null)
      ensures cmd.Set? ==>
        var i := GetDb(hash, |old(shards)|, cmd.key);
        && r == Success(Simple(OkText))
        && shards == old(shards)[i := old(shards)[i][cmd.key := cmd.value]]
      ensures cmd.Other? ==> r == Failure("Unimplemented " + cmd.name) && shards == old(shards)
      ensures r.Success? ==> Respond(old(shards), hash, cmd) == Success((r.value, shards))
      ensures r.Failure? ==> Respond(old(shards), hash, cmd) == Failure(r.error)
    {
      match cmd
      case Set(key, value) =>
        var i := GetDb(hash, |shards|, key);
        shards := shards[i := shards[i][key := value]];
        r := Success(Simple(OkText));
      case Get(key) =>
        var db := shards[GetDb(hash, |shards|, key)];
        if key in db {
          r := Success(Bulk(db[key]));
        } else {
          r := Success(Null);
        }
      case Other(name) =>
        r := Failure("Unimplemented " + name);
    }

    /**
     * `process` for one connection: answer each command in turn until they
     * run out or a command panics.
     */
    method Process(cmds: seq<Command>) returns (replies: seq<Frame>, panic: Option<string>)
      requires Valid()
      modifies this
      ensures Valid()
      ensures (replies, shards, panic) == Serve(old(shards), hash, cmds)
    {
      replies, panic := [], None;
      ghost var whole := Serve(shards, hash, cmds);
      var k := 0;
      assert cmds[k..] == cmds;
      assert [] + whole.0 == whole.0;
      while k < |cmds|
        invariant 0 <= k <= |cmds| && Valid()
        invariant var r := Serve(shards, hash, cmds[k..]);
          whole == (replies + r.0, r.1, r.2)
      {
        ghost var before, todo := shards, cmds[k..];
        ServeFirst(before, hash, todo);
        var r := Execute(cmds[k]);
        assert todo[0] == cmds[k] && todo[1..] == cmds[k + 1..];
        if r.Failure? {
          panic := Some(r.error);
          assert whole == (replies + [], before, Some(r.error));
          assert replies + [] == replies;
          return;
        }
        ghost var rest := Serve(shards, hash, cmds[k + 1..]);
        assert whole == (replies + ([r.value] + rest.0), rest.1, rest.2);
        assert replies + ([r.value] + rest.0) == (replies + [r.value]) + rest.0;
        replies := replies + [r.value];
        k := k + 1;
      }
      assert cmds[k..] == [] && replies + [] == replies;
    }
  }
}

=== FILE: third.dfy ===
/**
 * The persistent list of `entirely_too_many_lists/third.rs`. Nodes are shared
 * through `Rc` and never mutated, so a list is a value: `prepend` and `tail`
 * build new lists that share the receiver's nodes and leave the receiver as
 * it was. Only the iterator has state, its cursor.
 */
module ThirdList {
  import opened Wrappers

  /** `Link<T>`: no node, or a shared node holding an element and the rest. */
  datatype Link<T> = Nil | Node(elem: T, next: Link<T>)

  datatype List<T> = List(head: Link<T>)

  /** The elements reached from a link, in order. */
  function Elements<T>(l: Link<T>): seq<T>
  {
    match l
    case Nil => []
    case Node(e, next) => [e] + Elements(next)
  }

  /** The elements of a list, from its head to its end. */
  function Contents<T>(list: List<T>): seq<T>
  {
    Elements(list.head)
  }

  /** `List::new`. */
  function New<T>(): (r: List<T>)
    ensures Contents(r) == []
  {
    List(Nil)
  }

  /** `List::prepend`: a new list with `x` in front of the receiver's nodes. */
  function Prepend<T>(list: List<T>, x: T): (r: List<T>)
    ensures Contents(r) == [x] + Contents(list)
    ensures r.head.Node? && r.head.next == list.head
  {
    List(Node(x, list.head))
  }

  /** `List::tail`: the list after the first node; the empty list's tail is empty. */
  function Tail<T>(list: List<T>): (r: List<T>)
    ensures Contents(list) == [] ==> Contents(r) == []
    ensures Contents(list) != [] ==> Contents(r) == Contents(list)[1..]
  {
    List(if list.head.Node? then list.head.next else Nil)
  }

  /** `List::head`: the first element, if any. */
  function Head<T>(list: List<T>): (r: Option<T>)
    ensures r == None <==> Contents(list) == []
    ensures r.Some? ==> r.value == Contents(list)[0]
  {
    if list.head.Node? then Some(list.head.elem) else None
  }

  /** The head of a new list is `None`. */
  lemma NewHasNoHead<T>()
    ensures Head(New<T>()) == None
  {
  }

  /** `prepend(x)` has head `x`, and its tail is the receiver itself. */
  lemma PrependThenTail<T>(list: List<T>, x: T)
    ensures Head(Prepend(list, x)) == Some(x)
    ensures Tail(Prepend(list, x)) == list
  {
  }

  /**
   * The `basics` test: prepending 1, 2, 3 and taking tails shows the heads
   * 3, 2, 1 and then nothing, also after a tail of the empty list.
   */
  lemma Basics()
    ensures var l := Prepend(Prepend(Prepend(New(), 1), 2), 3);
      && Head(l) == Some(3)
      && Head(Tail(l)) == Some(2)
      && Head(Tail(Tail(l))) == Some(1)
      && Head(Tail(Tail(Tail(l)))) == None
      && Head(Tail(Tail(Tail(Tail(l))))) == None
  {
  }

  /**
   * `Iter`: a cursor over a list's nodes. The ghost fields record the list's
   * elements and those already yielded; what is left is always the rest.
   */
  class Iter<T> {
    var next: Link<T>
    ghost const whole: seq<T>
    ghost var yielded: seq<T>

    ghost predicate Valid()
      reads this
    {
      yielded + Elements(next) == whole
    }

    /** `List::iter`: a cursor at the list's head. */
    constructor (list: List<T>)
      ensures Valid() && whole == Contents(list) && yielded == [] && next == list.head
    {
      next := list.head;
      whole := Contents(list);
      yielded := [];
    }

    /**
     * `Iter::next`: the element under the cursor, advancing the cursor to the
     * following node; `None` once every element has been yielded.
     */
    method Next() returns (r: Option<T>)
      requires Valid()
      modifies this
      ensures Valid()
      ensures old(yielded) == whole ==> r == None && yielded == whole && next == Nil
      ensures |old(yielded)| < |whole| ==>
        r == Some(whole[|old(yielded)|]) && yielded == whole[..|old(yielded)| + 1]
    {
      match next
      case Nil =>
        r := None;
      case Node(e, rest) =>
        assert Elements(next) == [e] + Elements(rest);
        next := rest;
        yielded := yielded + [e];
        r := Some(e);
    }
  }
}

=== FILE: timer_future.dfy ===
/**
 * The timer of `asynchronous_programming_in_rust/timer_future.rs`.
 *
 * The timer and its worker thread share `SharedState { completed, waker }`
 * behind one mutex. The future's `poll` and the worker's wake-up after its
 * sleep (here: `Fire`) each run entirely under that lock, so every
 * interleaving of the two is a sequence of atomic steps. The pure step
 * functions below are the specification; the class `TimerFuture` performs the
 * same steps in place.
 */
module TimerFuture {
  import opened Wrappers
  import opened Futures

  datatype SharedState = SharedState(completed: bool, waker: Option<WakerId>)

  /** The state `TimerFuture::new` creates before starting the worker. */
  const Initial := SharedState(false, None)

  /**
   * `TimerFuture::poll` under the lock: the new state and the poll's result.
   * Its contract spells the step out; what it means is proved about it by
   * `BeforeFireHoldsLastPoller`, `PendingUntilFire` and `NoLostWakeup`, and
   * the class's `Poll` is proved to perform it.
   */
  function PollStep(s: SharedState, cx: WakerId): (r: (SharedState, Poll))
    ensures s.completed ==> r == (s, Ready)
    ensures !s.completed ==> r.1 == Pending && r.0 == SharedState(false, Some(cx))
  {
    if s.completed then (s, Ready) else (s.(waker := Some(cx)), Pending)
  }

  /**
   * The worker after its sleep, under the lock: mark the timer completed, take
   * the stored waker and wake it if there was one. `r.1` is the waker woken.
   * As for `PollStep`, the contract spells the step out; `NoLostWakeup` and
   * `CompletedAfterFire` state what it means, and the class's `Fire` is
   * proved to perform it.
   */
  function FireStep(s: SharedState): (r: (SharedState, Option<WakerId>))
    ensures r.0 == SharedState(true, None)
    ensures r.1 == s.waker
  {
    (SharedState(true, None), s.waker)
  }

  /** One atomic step of an interleaving: a poll by some task's waker, or the worker firing. */
  datatype Event = PollBy(cx: WakerId) | Fire

  function Apply(s: SharedState, e: Event): SharedState
  {
    match e
    case PollBy(cx) => PollStep(s, cx).0
    case Fire => FireStep(s).0
  }

  /** The shared state after the events `evs`, in order, starting from `Initial`. */
  function Replay(evs: seq<Event>): SharedState
  {
    if evs == [] then Initial else Apply(Replay(evs[..|evs| - 1]), evs[|evs| - 1])
  }

  /** The waker of the last poll among `evs`, if there is one. */
  function LastPoller(evs: seq<Event>): Option<WakerId>
  {
    if evs == [] then None
    else match evs[|evs| - 1]
      case PollBy(cx) => Some(cx)
      case Fire => LastPoller(evs[..|evs| - 1])
  }

  /**
   * Until the worker fires, the timer is not completed and holds exactly the
   * waker of the most recent poll: each pending poll overwrites the previous one.
   */
  lemma {:induction false} BeforeFireHoldsLastPoller(evs: seq<Event>)
    requires forall k :: 0 <= k < |evs| ==> evs[k] != Fire
    ensures Replay(evs) == SharedState(false, LastPoller(evs))
  {
    if evs != [] {
      BeforeFireHoldsLastPoller(evs[..|evs| - 1]);
    }
  }

  /** Once the worker has fired, the timer stays completed whatever happens next. */
  lemma {:induction false} CompletedAfterFire(evs: seq<Event>, i: nat)
    requires i < |evs| && evs[i] == Fire
    ensures Replay(evs).completed
  {
    if i < |evs| - 1 {
      CompletedAfterFire(evs[..|evs| - 1], i);
    }
  }

  /**
   * No lost wakeup. Take any interleaving `evs` of polls in which the worker
   * has not fired yet. If the worker fires now, it wakes the waker of the last
   * poll (every such poll returned `Pending`); and any poll made after the
   * firing, however many other events come between, returns `Ready` by
   * itself. So a pending poll is always followed by either a wake or a `Ready`.
   */
  lemma NoLostWakeup(evs: seq<Event>, later: seq<Event>, cx: WakerId)
    requires forall k :: 0 <= k < |evs| ==> evs[k] != Fire
    ensures FireStep(Replay(evs)).1 == LastPoller(evs)
    ensures PollStep(Replay(evs + [Fire] + later), cx) == (Replay(evs + [Fire] + later), Ready)
  {
    BeforeFireHoldsLastPoller(evs);
    CompletedAfterFire(evs + [Fire] + later, |evs|);
  }

  /** Every poll made before the worker fires returns `Pending`. */
  lemma PendingUntilFire(evs: seq<Event>, cx: WakerId)
    requires forall k :: 0 <= k < |evs| ==> evs[k] != Fire
    ensures PollStep(Replay(evs), cx).1 == Pending
  {
    BeforeFireHoldsLastPoller(evs);
  }

  /** The `TimerFuture` with its `Arc<Mutex<SharedState>>`, updated in place. */
  class TimerFuture {
    var completed: bool
    var waker: Option<WakerId>

    function State(): SharedState
      reads this
    {
      SharedState(completed, waker)
    }

    /**
     * `TimerFuture::new`: not completed and no stored waker. The worker it
     * starts is the `Fire` method, called whenever the duration has elapsed.
     */
    constructor ()
      ensures State() == Initial
    {
      completed, waker := false, None;
    }

    /** `Future::poll` for `TimerFuture`. */
    method Poll(cx: WakerId) returns (r: Poll)
      modifies this
      ensures (State(), r) == PollStep(old(State()), cx)
    {
      if completed {
        r := Ready;
      } else {
        waker := Some(cx);
        r := Pending;
      }
    }

    /** The worker thread's body after `thread::sleep(duration)`. */
    method Fire() returns (woken: Option<WakerId>)
      modifies this
      ensures (State(), woken) == FireStep(old(State()))
    {
      completed := true;
      woken := waker;
      waker := None;
    }
  }

  /**
   * One timer as the executor's test uses it: polled by a task whose waker is
   * `cx` before the worker fires, then fired, then polled again. The first
   * poll is `Pending`, the worker wakes exactly `cx`, and the second poll is
   * `Ready`.
   */
  method PollFirePoll(cx: WakerId) returns (first: Poll, woken: Option<WakerId>, second: Poll)
    ensures first == Pending && woken == Some(cx) && second == Ready
  {
    var timer := new TimerFuture();
    first := timer.Poll(cx);
    woken := timer.Fire();
    second := timer.Poll(cx);
  }
}

=== FILE: tokio_tutorial.dfy ===
/**
 * The futures and the mini runtime of `tokio_tutorial/mod.rs`.
 *
 * Clock readings (`Instant::now()`) are parameters, in milliseconds. A
 * `Delay`'s shared `Arc<Mutex<Waker>>` is a `WakerCell` object, because the
 * delay and its worker thread both hold it and `poll` rewrites it in place.
 */
module TokioTutorial {
  import opened Wrappers
  import opened Futures

  /** A clock reading, in milliseconds. */
  type Instant = int

  /** The message of the panic raised when a finished `MainFuture` is polled. */
  const PolledAfterCompletion := "future polled after completion"

  /** The panic of `try_lock().unwrap()` when the task's future is already locked. */
  const WouldBlock := "called `Result::unwrap()` on an `Err` value: WouldBlock"

  /** An `Arc<Mutex<Waker>>`, shared between a `Delay` and its worker thread. */
  class WakerCell {
    var waker: WakerId

    constructor (w: WakerId)
      ensures waker == w
    {
      waker := w;
    }

    /**
     * The worker thread after sleeping until the deadline: it locks the cell
     * and wakes the waker the cell holds at that moment. That this is the
     * waker the latest `Delay::poll` stored is what `WorkerWakesLatestPoller`
     * states.
     */
    method WorkerWake() returns (woken: WakerId)
      ensures woken == waker
    {
      woken := waker;
    }
  }

  class Delay {
    const when: Instant
    /** `None` is `null`. */
    var waker: WakerCell?

    constructor (when: Instant, waker: WakerCell?)
      ensures this.when == when && this.waker == waker
    {
      this.when := when;
      this.waker := waker;
    }

    /**
     * `Delay::poll`. With a stored cell it replaces the cell's waker only when
     * `will_wake` says the stored one would not wake the same task; without one
     * it stores a fresh cell holding the context's waker and starts exactly one
     * worker thread (`startedWorker`). It is ready exactly when `now >= when`.
     */
    method Poll(cx: WakerId, now: Instant) returns (r: Poll, startedWorker: bool)
      modifies this, waker
      ensures r == (if now >= when then Ready else Pending)
      ensures startedWorker <==> old(waker) == null
      ensures old(waker) == null ==> waker != null && fresh(waker) && waker.waker == cx
      ensures old(waker) != null ==> waker == old(waker) && waker.waker == cx
      ensures old(waker) != null && old(waker.waker) == cx ==> unchanged(waker)
    {
      if waker != null {
        var willWake := waker.waker == cx;
        if !willWake {
          waker.waker := cx;
        }
        startedWorker := false;
      } else {
        waker := new WakerCell(cx);
        startedWorker := true;
      }
      r := if now >= when then Ready else Pending;
    }
  }

  /**
   * A `Delay` polled before its deadline by one waker and then by another
   * (the task moved to a different waker): only the first poll starts the
   * worker thread, both polls are `Pending`, and when the worker wakes up it
   * wakes the second waker, the one the latest poll stored in the shared cell.
   */
  method WorkerWakesLatestPoller(c1: WakerId, c2: WakerId) returns (p1: Poll, p2: Poll, started1: bool, started2: bool, woken: WakerId)
    ensures p1 == Pending && p2 == Pending
    ensures started1 && !started2
    ensures woken == c2
  {
    var d := new Delay(100, null);
    p1, started1 := d.Poll(c1, 0);
    var cell := d.waker;
    p2, started2 := d.Poll(c2, 50);
    woken := cell.WorkerWake();
  }

  datatype MainState = State0 | State1(delay: Delay) | Terminated

  /** The hand-written state machine of an `async` block that awaits one `Delay`. */
  class MainFuture {
    var state: MainState

    /** The objects `poll` may update: the current delay and its waker cell. */
    ghost function Repr(): set<object?>
      reads this
    {
      if state.State1? then {state.delay} else {}
    }

    /** The delay in `State1` was built with a waker cell, and keeps it. */
    ghost predicate Valid()
      reads this, Repr()
    {
      state.State1? ==> state.delay.waker != null
    }

    constructor ()
      ensures state == State0 && Valid()
    {
      state := State0;
    }

    /**
     * `MainFuture::poll`. From `State0` one call builds a `Delay` ten
     * milliseconds after `start`, whose waker cell already holds the context's
     * waker, moves to `State1` and polls that delay at `now` in the same call.
     * It reports `Ready` only when the delay does, switching to `Terminated`;
     * polling it once terminated panics. Because every delay it builds already
     * holds a waker, no call ever starts a delay's worker thread: nothing will
     * wake the task after a `Pending`.
     */
    method Poll(cx: WakerId, start: Instant, now: Instant) returns (r: Result<Poll, string>, startedWorker: bool)
      requires Valid() && start <= now
      modifies this, Repr(), if state.State1? then {state.delay.waker} else {}
      ensures Valid() && !startedWorker
      ensures old(state).State0? && now >= start + 10 ==> r == Success(Ready) && state == Terminated
      ensures old(state).State0? && now < start + 10 ==>
        && r == Success(Pending) && state.State1? && fresh(state.delay) && state.delay.when == start + 10
        && fresh(state.delay.waker) && state.delay.waker.waker == cx
      ensures old(state).State1? && now >= old(state).delay.when ==> r == Success(Ready) && state == Terminated
      ensures old(state).State1? && now < old(state).delay.when ==>
        r == Success(Pending) && state == old(state) && state.delay.waker.waker == cx
      ensures old(state).Terminated? ==> r == Failure(PolledAfterCompletion) && state == Terminated
    {
      startedWorker := false;
      while true
        invariant Valid() && !startedWorker
        invariant old(state).State0? ==>
          (state.State0? ||
           (state.State1? && fresh(state.delay) && state.delay.when == start + 10
             && fresh(state.delay.waker) && state.delay.waker.waker == cx))
        invariant !old(state).State0? ==> state == old(state)
        invariant old(state).State1? ==> state.delay.waker == old(state.delay.waker)
        decreases if state.State0? then 1 else 0
      {
        match state
        case State0 =>
          var when := start + 10;
          var cell := new WakerCell(cx);
          var delay := new Delay(when, cell);
          state := State1(delay);
        case State1(delay) =>
          var p, w := delay.Poll(cx, now);
          startedWorker := w;
          if p == Ready {
            state := Terminated;
            r := Success(Ready);
          } else {
            r := Success(Pending);
          }
          return;
        case Terminated =>
          r := Failure(PolledAfterCompletion);
          return;
      }
    }
  }

  /**
   * `MiniTokio` with its unbounded channel. Tasks are numbered in spawn order;
   * `futures[t]` is the future of task `t`, kept for good (a task is never
   * removed, even after its future reported `Ready`), and `locked[t]` tells
   * whether that future's mutex is held.
   */
  class MiniTokio {
    var queue: seq<nat>
    var futures: seq<Fut>
    var locked: seq<bool>
    /** Every task `Task::poll` polled, in order. */
    ghost var log: seq<nat>

    ghost predicate Valid()
      reads this
    {
      && |locked| == |futures|
      && (forall k :: 0 <= k < |queue| ==> queue[k] < |futures|)
      && (forall t :: 0 <= t < |locked| ==> !locked[t])
    }

    /** Polls still owed by all futures; the run loop's termination measure. */
    ghost function Work(): nat
      reads this
    {
      SumBy(futures, (f: Fut) => |f.pending|)
    }

    /** `MiniTokio::new`. */
    constructor ()
      ensures Valid() && queue == [] && futures == [] && log == []
    {
      queue, futures, locked, log := [], [], [], [];
    }

    /**
     * `MiniTokio::spawn` through `Task::spawn`: a new task holding `f` is sent
     * on the runtime's own sender. The send cannot fail, since the runtime
     * keeps the receiver; its result is ignored anyway.
     */
    method Spawn(f: Fut)
      requires Valid()
      modifies this
      ensures Valid()
      ensures futures == old(futures) + [f] && queue == old(queue) + [|old(futures)|] && log == old(log)
    {
      queue := queue + [|futures|];
      futures := futures + [f];
      locked := locked + [false];
    }

    /** `Task::schedule`, the task's `wake_by_ref`: send the task again, ignoring errors. */
    method Schedule(t: nat)
      requires Valid() && t < |futures|
      modifies this
      ensures Valid()
      ensures queue == old(queue) + [t] && futures == old(futures) && log == old(log)
    {
      queue := queue + [t];
    }

    /**
     * `Task::poll`: `try_lock().unwrap()` on the task's future panics if it is
     * already locked, instead of blocking; otherwise the future is polled once
     * and its result ignored. A future that wakes itself reschedules the task.
     */
    method PollTask(t: nat) returns (r: Result<Poll, string>)
      requires |locked| == |futures| && t < |futures|
      requires forall k :: 0 <= k < |queue| ==> queue[k] < |futures|
      modifies this
      ensures |locked| == |futures| && locked == old(locked)
      ensures forall k :: 0 <= k < |queue| ==> queue[k] < |futures|
      ensures old(locked[t]) ==> r == Failure(WouldBlock) && queue == old(queue) && futures == old(futures) && log == old(log)
      ensures !old(locked[t]) ==>
        var o := PollFut(old(futures[t]));
        && r == Success(o.poll)
        && futures == old(futures)[t := o.rest]
        && queue == old(queue) + (if o.wakesSelf then [t] else [])
        && log == old(log) + [t]
    {
      if locked[t] {
        r := Failure(WouldBlock);
        return;
      }
      locked := locked[t := true];
      var o := PollFut(futures[t]);
      if o.wakesSelf {
        queue := queue + [t];
      }
      futures := futures[t := o.rest];
      locked := locked[t := false];
      log := log + [t];
      r := Success(o.poll);
    }

    /**
     * `MiniTokio::run`: poll every received task once per receipt, in the
     * order received, until the queue is empty. The runtime keeps its own
     * sender, so `recv` never reports disconnection: at that point the real
     * loop blocks for ever. The tasks queued on entry are polled first, in
     * queue order.
     */
    method Run()
      requires Valid()
      modifies this
      ensures Valid() && queue == [] && |futures| == |old(futures)|
      ensures old(log) + old(queue) <= log
    {
      ghost var q0, log0 := queue, log;
      ghost var d := 0;
      while |queue| > 0
        invariant Valid() && |futures| == |old(futures)|
        invariant 0 <= d <= |q0| && q0[d..] <= queue
        invariant log0 + q0[..d] <= log
        invariant d < |q0| ==> log == log0 + q0[..d]
        decreases Work(), |queue|
      {
        var t := queue[0];
        queue := queue[1..];
        SumByUpdate(futures, t, PollFut(futures[t]).rest, (f: Fut) => |f.pending|);
        var _ := PollTask(t);
        if d < |q0| {
          assert q0[..d + 1] == q0[..d] + [t];
          d := d + 1;
        }
      }
      assert q0[..d] == q0;
    }
  }

  /**
   * `Task::poll` has no guard against a finished future: unlike the
   * hand-written executor, which takes the future out of its slot, MiniTokio
   * keeps it, so a task that is scheduled again after its future reported
   * `Ready` is polled a second time. Here a future ready on its first poll is
   * polled, rescheduled (as a stray wake would do) and polled once more.
   */
  method PolledAgainAfterReady() returns (rt: MiniTokio, first: Result<Poll, string>, second: Result<Poll, string>)
    ensures first == Success(Ready) && second == Success(Ready)
    ensures rt.log == [0, 0]
  {
    rt := new MiniTokio();
    rt.Spawn(Fut([]));
    first := rt.PollTask(0);
    rt.Schedule(0);
    second := rt.PollTask(0);
  }
}

=== FILE: union_find.dfy ===
/**
 * The union-find structure of `data_structures/union_find.rs`, with path
 * compression in `find`, modelled as written: both branches of `unify` attach
 * the root of `p` under the root of `q`, and `num_components` is never
 * decremented.
 *
 * Two ghost fields carry the proof. `root[i]` is the root node `i` reaches by
 * following `id`, and `rank` strictly increases from a node to its parent,
 * which makes the parent chains acyclic and bounds every walk up a tree.
 */
module UnionFind {
  import opened Wrappers

  datatype UnionFindError = UnionFindSizeError | UnionFindInvalidId

  /** The nodes among `0 .. |root|` whose root is `r`. */
  ghost function MembersOf(root: seq<nat>, r: nat): set<nat>
  {
    set i | 0 <= i < |root| && root[i] == r
  }

  /** `root` after the tree rooted at `a` is attached under the root `b`. */
  ghost function Relabel(root: seq<nat>, a: nat, b: nat): (root': seq<nat>)
    ensures |root'| == |root|
    ensures forall i :: 0 <= i < |root| ==> root'[i] == if root[i] == a then b else root[i]
  {
    seq(|root|, i requires 0 <= i < |root| => if root[i] == a then b else root[i])
  }

  /**
   * Attaching the tree rooted at `a` under the distinct root `b` gives `b` the
   * members of both trees and leaves every other tree as it was; in particular
   * the new size of `b`'s tree is the sum of the two old sizes.
   */
  lemma MergeMembers(root: seq<nat>, a: nat, b: nat)
    requires a != b
    ensures MembersOf(Relabel(root, a, b), b) == MembersOf(root, b) + MembersOf(root, a)
    ensures |MembersOf(Relabel(root, a, b), b)| == |MembersOf(root, b)| + |MembersOf(root, a)|
    ensures forall r :: r != a && r != b ==> MembersOf(Relabel(root, a, b), r) == MembersOf(root, r)
  {
    var root' := Relabel(root, a, b);
    assert MembersOf(root', b) == MembersOf(root, b) + MembersOf(root, a);
    assert MembersOf(root, b) * MembersOf(root, a) == {};
  }

  /** A fresh forest of singletons has exactly one member per tree. */
  lemma SingletonMembers(n: nat, r: nat)
    requires r < n
    ensures MembersOf(seq(n, i => i), r) == {r}
  {
  }

  /**
   * `id` is a forest of parent links: `root[i]` is a root (its own parent)
   * shared by `i` and its parent, and `rank` strictly increases from a node
   * to its parent, so following parents from any node ends at its root.
   */
  ghost predicate Forest(id: seq<nat>, root: seq<nat>, rank: seq<nat>)
  {
    && |root| == |id| && |rank| == |id|
    && (forall i :: 0 <= i < |id| ==> id[i] < |id| && root[i] < |id|)
    && (forall i {:trigger id[root[i]]} :: 0 <= i < |id| ==> id[root[i]] == root[i])
    && (forall i :: 0 <= i < |id| && id[i] == i ==> root[i] == i)
    && (forall i {:trigger root[id[i]]} :: 0 <= i < |id| ==> root[id[i]] == root[i])
    && (forall i {:trigger rank[id[i]]} :: 0 <= i < |id| && id[i] != i ==> rank[i] < rank[id[i]])
    && (forall i {:trigger rank[root[i]]} :: 0 <= i < |id| ==> rank[i] <= rank[root[i]])
  }

  /** The size recorded for every root is the number of nodes in its tree. */
  ghost predicate SizesMatch(id: seq<nat>, sizes: seq<nat>, root: seq<nat>)
    requires |root| == |id|
  {
    && |sizes| == |id|
    && forall r :: 0 <= r < |id| && id[r] == r ==> sizes[r] == |MembersOf(root, r)|
  }

  /**
   * Path compression: re-pointing any node straight at its root keeps the
   * forest, every node's root and every recorded size.
   */
  lemma CompressKeepsForest(id: seq<nat>, sizes: seq<nat>, root: seq<nat>, rank: seq<nat>, q: nat)
    requires Forest(id, root, rank) && SizesMatch(id, sizes, root) && q < |id|
    ensures Forest(id[q := root[q]], root, rank) && SizesMatch(id[q := root[q]], sizes, root)
  {
    var id' := id[q := root[q]];
    forall i | 0 <= i < |id| && id'[i] != i
      ensures rank[i] < rank[id'[i]]
    {
      if i == q {
        assert rank[q] < rank[id[q]] <= rank[root[id[q]]];
      }
    }
  }

  /** `rank` after attaching the root `a` under the root `b`: `b` ends above `a`. */
  ghost function RaiseRank(rank: seq<nat>, a: nat, b: nat): seq<nat>
    requires a < |rank| && b < |rank|
  {
    rank[b := if rank[b] > rank[a] then rank[b] else rank[a] + 1]
  }

  /**
   * Attaching the root `a` under the distinct root `b`, raising `b`'s rank
   * above `a`'s if needed, keeps a forest in which every node of `a`'s tree
   * now reaches `b`.
   */
  lemma AttachKeepsForest(id: seq<nat>, root: seq<nat>, rank: seq<nat>, a: nat, b: nat)
    requires Forest(id, root, rank)
    requires a < |id| && b < |id| && a != b && id[a] == a && id[b] == b
    ensures Forest(id[a := b], Relabel(root, a, b), RaiseRank(rank, a, b))
  {
    var id', root', rank' := id[a := b], Relabel(root, a, b), RaiseRank(rank, a, b);
    forall i | 0 <= i < |id|
      ensures id'[root'[i]] == root'[i] && root'[id'[i]] == root'[i] && rank'[i] <= rank'[root'[i]]
    {
      if root[i] == a {
        assert rank[i] <= rank[a];
      }
    }
    forall i | 0 <= i < |id| && id'[i] != i
      ensures rank'[i] < rank'[id'[i]]
    {
      if i != a && id[i] == b {
        assert rank[i] < rank[b];
      }
    }
  }

  /**
   * Attaching the root `a` under the distinct root `b` and adding `a`'s size
   * to `b`'s keeps every recorded size equal to the number of nodes in its tree.
   */
  lemma AttachKeepsSizes(id: seq<nat>, sizes: seq<nat>, root: seq<nat>, rank: seq<nat>, a: nat, b: nat)
    requires Forest(id, root, rank) && SizesMatch(id, sizes, root)
    requires a < |id| && b < |id| && a != b && id[a] == a && id[b] == b
    ensures SizesMatch(id[a := b], sizes[b := sizes[b] + sizes[a]], Relabel(root, a, b))
  {
    var id', root', sizes' := id[a := b], Relabel(root, a, b), sizes[b := sizes[b] + sizes[a]];
    MergeMembers(root, a, b);
    forall r | 0 <= r < |id| && id'[r] == r
      ensures sizes'[r] == |MembersOf(root', r)|
    {
      if r == b {
        assert sizes'[b] == |MembersOf(root, b)| + |MembersOf(root, a)|;
      } else {
        assert r != a && id[r] == r;
        assert MembersOf(root', r) == MembersOf(root, r);
      }
    }
  }

  class UnionFind {
    /** The number of nodes. */
    var size: nat
    /** `sizes[r]`: the number of nodes in the tree of the root `r`. */
    var sizes: array<nat>
    /** `id[i]`: the parent of node `i`; `i` is a root when `id[i] == i`. */
    var id: array<nat>
    var numComponents: nat
    ghost var root: seq<nat>
    ghost var rank: seq<nat>

    ghost predicate Valid()
      reads this, id, sizes
    {
      && id != sizes
      && id.Length == size && sizes.Length == size
      && Forest(id[..], root, rank)
      && SizesMatch(id[..], sizes[..], root)
      && numComponents == size
    }

    /** The root reached by following `id` from `i`, one parent at a time. */
    ghost function FollowParents(i: nat): (r: nat)
      requires Valid() && i < size
      reads this, id, sizes
      ensures r == root[i] && r < size && id[r] == r
      decreases rank[root[i]] - rank[i]
    {
      if id[i] == i then i else FollowParents(id[i])
    }

    constructor Init(n: nat)
      requires n > 0
      ensures Valid() && fresh(id) && fresh(sizes)
      ensures size == n && numComponents == n
      ensures forall i :: 0 <= i < n ==> id[i] == i && sizes[i] == 1
    {
      size := n;
      id := new nat[n](i => i);
      sizes := new nat[n](_ => 1);
      numComponents := n;
      root := seq(n, i => i);
      rank := seq(n, _ => 0);
      new;
      assert id[..] == seq(n, i => i);
      forall r | 0 <= r < n
        ensures |MembersOf(root, r)| == 1
      {
        SingletonMembers(n, r);
      }
    }

    /** `UnionFind::new`: a size of zero is refused. */
    static method New(n: nat) returns (r: Result<UnionFind, UnionFindError>)
      ensures n == 0 <==> r == Failure(UnionFindSizeError)
      ensures n > 0 ==> r.Success?
      ensures r.Success? ==>
        && fresh(r.value) && fresh(r.value.id) && fresh(r.value.sizes) && r.value.Valid()
        && r.value.size == n && r.value.numComponents == n
        && (forall i :: 0 <= i < n ==> r.value.id[i] == i && r.value.sizes[i] == 1)
    {
      if n == 0 {
        return Failure(UnionFindSizeError);
      }
      var uf := new UnionFind.Init(n);
      r := Success(uf);
    }

    /**
     * `UnionFind::find`: the root of `p`, after re-pointing `p` and the nodes
     * above it directly at that root. No node changes the root it reaches; a
     * node whose parent changed now points at its root.
     */
    method Find(p: nat) returns (r: Result<nat, UnionFindError>)
      requires Valid()
      modifies id
      ensures Valid()
      ensures p >= size ==> r == Failure(UnionFindInvalidId) && id[..] == old(id[..])
      ensures p < size ==> r == Success(root[p]) && id[root[p]] == root[p] && id[p] == root[p]
      ensures forall i :: 0 <= i < size ==> id[i] == old(id[i]) || id[i] == root[i]
    {
      if p >= size {
        return Failure(UnionFindInvalidId);
      }
      var top: nat := p;
      while top != id[top]
        invariant top < size && root[top] == root[p]
        decreases rank[root[p]] - rank[top]
      {
        top := id[top];
      }
      var q: nat := p;
      while q != top
        invariant Valid()
        invariant q < size && root[q] == top
        invariant q != p ==> id[p] == top
        invariant forall i :: 0 <= i < size ==> id[i] == old(id[i]) || id[i] == root[i]
        decreases rank[top] - rank[q]
      {
        var next := id[q];
        CompressKeepsForest(id[..], sizes[..], root, rank, q);
        id[q] := top;
        q := next;
      }
      r := Success(top);
    }

    /** `UnionFind::connected`: whether `p` and `q` have the same root. */
    method Connected(p: nat, q: nat) returns (r: Result<bool, UnionFindError>)
      requires Valid()
      modifies id
      ensures Valid()
      ensures r.Success? <==> p < size && q < size
      ensures r.Failure? ==> r.error == UnionFindInvalidId
      ensures r.Success? ==> r.value == (root[p] == root[q])
    {
      var rp := Find(p);
      if rp.Failure? {
        return Failure(rp.error);
      }
      var rq := Find(q);
      if rq.Failure? {
        return Failure(rq.error);
      }
      r := Success(rp.value == rq.value);
    }

    /** `UnionFind::size`. */
    method Size() returns (n: nat)
      requires Valid()
      ensures n == id.Length
    {
      n := size;
    }

    /** `UnionFind::components_size`: as written, always the number of nodes. */
    method ComponentsSize() returns (c: nat)
      requires Valid()
      ensures c == id.Length
    {
      c := numComponents;
    }

    /**
     * The merge step of `unify` for two distinct roots, with its two identical
     * branches: the size of `a`'s tree is added to `b`'s and `a` is attached
     * under `b`, whichever tree is smaller.
     */
    method Attach(a: nat, b: nat)
      requires Valid() && a < size && b < size && a != b && id[a] == a && id[b] == b
      modifies this, id, sizes
      ensures Valid() && id == old(id) && sizes == old(sizes) && size == old(size)
      ensures numComponents == old(numComponents)
      ensures root == Relabel(old(root), a, b)
      ensures id[..] == old(id[..])[a := b]
      ensures sizes[..] == old(sizes[..])[b := old(sizes[b]) + old(sizes[a])]
    {
      ghost var id0, sizes0 := id[..], sizes[..];
      AttachKeepsForest(id0, root, rank, a, b);
      AttachKeepsSizes(id0, sizes0, root, rank, a, b);
      if sizes[a] < sizes[b] {
        sizes[b] := sizes[b] + sizes[a];
        id[a] := b;
      } else {
        sizes[b] := sizes[b] + sizes[a];
        id[a] := b;
      }
      assert id[..] == id0[a := b];
      assert sizes[..] == sizes0[b := sizes0[b] + sizes0[a]];
      root := Relabel(root, a, b);
      rank := RaiseRank(rank, a, b);
    }

    /**
     * `UnionFind::unify`. Both branches add the size of `p`'s tree to that of
     * `q`'s root and attach `p`'s root under `q`'s root, so every node of
     * `p`'s tree now reaches `q`'s root. If `p` and `q` already shared a root,
     * no root gets a parent and no size changes. `num_components` is left as
     * it is. With an invalid id nothing is merged.
     */
    method Unify(p: nat, q: nat) returns (r: Result<(), UnionFindError>)
      requires Valid()
      modifies this, id, sizes
      ensures Valid() && id == old(id) && sizes == old(sizes) && size == old(size)
      ensures numComponents == old(numComponents)
      ensures r.Success? <==> p < size && q < size
      ensures r.Failure? ==> r.error == UnionFindInvalidId && root == old(root) && sizes[..] == old(sizes[..])
      ensures r.Success? ==> root == Relabel(old(root), old(root)[p], old(root)[q]) && root[p] == root[q]
      ensures r.Success? && old(root)[p] == old(root)[q] ==>
        && root == old(root) && sizes[..] == old(sizes[..])
        && forall i :: 0 <= i < size && old(id[i]) == i ==> id[i] == i
      ensures r.Success? && old(root)[p] != old(root)[q] ==>
        && id[old(root)[p]] == old(root)[q]
        && sizes[old(root)[q]] == old(sizes[root[q]]) + old(sizes[root[p]])
    {
      var rp := Find(p);
      if rp.Failure? {
        return Failure(rp.error);
      }
      var rq := Find(q);
      if rq.Failure? {
        return Failure(rq.error);
      }
      var a, b := rp.value, rq.value;
      if a != b {
        Attach(a, b);
      } else {
        assert Relabel(root, a, b) == root;
      }
      r := Success(());
    }
  }
}

=== FILE: wrappers.dfy ===
/** Option and Result, the two wrappers the Rust code returns everywhere. */
module Wrappers {

  datatype Option<+T> = None | Some(value: T)

  datatype Result<+R, +E> = Success(value: R) | Failure(error: E)
}
